=== FILE: README.md ===
# fake-koji job reconciliation, modelled in Dafny

fake-koji generates Jenkins jobs from project configurations. Each job is a
directory under the Jenkins jobs root holding a `config.xml`, plus a registration
on the Jenkins executor. Retired jobs are moved under an archive root.
`JenkinsJobUpdater` reconciles the host with the jobs a configuration produces.

- A call with an old and a new set of jobs archives every old job whose name is gone.
- It revives every new job whose name is in the archive.
- It rewrites a job whose name stays but whose content changed.
- It creates a job whose name is new.
- It leaves an unchanged job alone.
- `update(Platform)` and `update(Task)` regenerate every job of the stored projects that runs on that platform or task.

Every action is wrapped so that a failure becomes a per-job result, not an exception.

The project also models two supporting pieces:
- `TaskJob`'s content equality and its exported variables;
- the build-provider manager, a store keyed by id.

Modules:

- `Wrappers`: `Option` and `Result`.
- `KojiModel`: products, tasks, platforms, variants and build providers as values.
- `Jobs`:
  - `TaskJob` and `Job`.
  - `Equals` and `ExportedVariables`.
  - `Rendering`, which supplies `Job.toString()` (the job's name) and `Job.generateTemplate()` (its config, which may fail).
- `Host`: the world the updater changes, the primitive operations on it, and `JenkinsHost`, the class the actions mutate.
  - The world holds the active directories with their config, the archived directories and the executor's registrations.
  - Each primitive can fail in two ways:
    - naturally: a directory that already exists, or one that is missing;
    - by a fault oracle in `Settings`, which names the primitives that throw and their messages.
- `JobActions`:
  - The create, revive, rewrite and archive functions, each specified as a function (`CreateStep`, …) and implemented as a method against `JenkinsHost`.
  - `PrimaryExceptionThrower` with its `Call`.
  - `Wrapped`, the exception-to-result wrapper.
- `JenkinsJobUpdater`: classification, the two loops of `update(Set, Set)` and the selective rewrite.
  - The loops take the jobs of a set in an order the set does not fix. So each driver returns, as a ghost value, the plan it followed: its actions in order.
  - The driver's postcondition does two things:
    - it pins the plan down: each job to archive is archived once, and every new job gets one admissible disposition or none;
    - it states the final host and the results as `Trace` and `Report` of that plan.
  - Lemmas then show what any such plan reports.
  - When names are unique, the order does not matter: each job fares as if it were acted on alone (`TraceIndependent`).
- `BuildProviders`: `Storage` and `BuildProviderManager`.

`findAny` at JenkinsJobUpdater.java:149-151 is free to pick any same-named old job. When two old jobs share a name, one equal to the new job and one not, it may give either "leave alone" or "rewrite". The model keeps that freedom: the decision is the relation `Admissible` / `MayStay`. `ClassificationFunctional` proves that at most one disposition is ever admissible, and that the choice between it and leaving the job alone is forced whenever no other old job shares the new job's name.

Name and content are kept apart:
- "same job" is equality of `NameOf` (`toString()`);
- "same content" is `Equals`, which is value equality of the job (`Jobs.Equals`).

## Model

| member | source | states |
|---|---|---|
| Jobs.Equals | fake-koji/src/main/java/org/fakekoji/jobmanager/model/TaskJob.java:80-92 | A task job equals an object exactly when the object is a task job with all seven attributes equal. So it is reflexive, false for any non-task job, and the same as value equality. |
| Jobs.FixedVariables | fake-koji/src/main/java/org/fakekoji/jobmanager/model/TaskJob.java:96-99 | The four fixed keys. The version goes under the JDK version key, "o" + product id under the OJDK key, the package name under the package key and the project name under the project key. A later put replaces an earlier one when keys coincide. |
| Jobs.VariantVariables | fake-koji/src/main/java/org/fakekoji/jobmanager/model/TaskJob.java:100-102 | When variant ids are distinct, each variant id maps to the id of its value, and there are no other keys. |
| Jobs.UnequalIsContentChanged | fake-koji/src/main/java/org/fakekoji/jobmanager/model/TaskJob.java:80-92 | For a task job, "equals is false" (the rewrite test at JenkinsJobUpdater.java:154) is the same as the two jobs being different values. |
| Jobs.ExportedVariables | fake-koji/src/main/java/org/fakekoji/jobmanager/model/TaskJob.java:94-104 | Fails exactly when two variants share an id (toMap's duplicate key). Otherwise the keys are the four fixed keys plus the variant ids. Variant entries override fixed ones, and each fixed key not overridden holds its product or project value. |
| Host.MkdirStep | fake-koji/src/main/java/org/fakekoji/jobmanager/JenkinsJobUpdater.java:186-189 | mkdir of the job directory fails with "Could't create file: " + its path when the directory exists or the oracle refuses. Otherwise it adds an empty directory. It touches no other job. |
| Host.WriteStep | fake-koji/src/main/java/org/fakekoji/jobmanager/JenkinsJobUpdater.java:194-197 | Writing config.xml fails when the directory is missing or the oracle refuses. Otherwise it sets the directory's config. It touches no other job. |
| Host.MoveStep | fake-koji/src/main/java/org/fakekoji/jobmanager/JenkinsJobUpdater.java:213-232 | Moving (the archiving move at line 213, the reviving move at line 232) a job directory between the roots fails when the source is missing, the target exists or the oracle refuses. Otherwise it carries the directory and its config across. It touches no other job. |
| Host.RegisterStep | fake-koji/src/main/java/org/fakekoji/jobmanager/JenkinsJobUpdater.java:254-262 | Registering or reloading a job on the executor either fails by the oracle, or leaves the job registered. It touches no other job. |
| Host.DeleteRemoteStep | fake-koji/src/main/java/org/fakekoji/jobmanager/JenkinsJobUpdater.java:234 | Deleting a job on the executor either fails by the oracle, or unregisters the job. It touches no other job. |
| Host.JenkinsHost.Mkdir | fake-koji/src/main/java/org/fakekoji/jobmanager/JenkinsJobUpdater.java:186-189 | The host's new state and outcome are those of MkdirStep. |
| Host.JenkinsHost.WriteConfig | fake-koji/src/main/java/org/fakekoji/jobmanager/JenkinsJobUpdater.java:194-197 | The host's new state and outcome are those of WriteStep. |
| Host.JenkinsHost.MoveDir | fake-koji/src/main/java/org/fakekoji/jobmanager/JenkinsJobUpdater.java:213-232 | Both moves, archiving (line 213) and reviving (line 232): the host's new state and outcome are those of MoveStep. |
| Host.JenkinsHost.Register | fake-koji/src/main/java/org/fakekoji/jobmanager/JenkinsJobUpdater.java:254-262 | The host's new state and outcome are those of RegisterStep. |
| Host.JenkinsHost.DeleteRemote | fake-koji/src/main/java/org/fakekoji/jobmanager/JenkinsJobUpdater.java:234 | The host's new state and outcome are those of DeleteRemoteStep. |
| Host.JenkinsHost.ListArchive | fake-koji/src/main/java/org/fakekoji/jobmanager/JenkinsJobUpdater.java:137 | Listing the archive root gives exactly the archived names, or the failure that aborts the call. |
| JobActions.WriteTemplateStep | fake-koji/src/main/java/org/fakekoji/jobmanager/JenkinsJobUpdater.java:194-197 | Generating the template and writing it as config.xml: a template failure is the error and changes nothing; otherwise it succeeds iff the active directory exists and the write is not refused, and then the directory holds the new template. Archive and registrations are untouched, and so is every other job. |
| JobActions.WriteTemplate | fake-koji/src/main/java/org/fakekoji/jobmanager/JenkinsJobUpdater.java:194-197 | The host's new state and outcome are those of WriteTemplateStep. |
| JobActions.RumStep | fake-koji/src/main/java/org/fakekoji/jobmanager/JenkinsJobUpdater.java:269-272 | Running one step handed to PrimaryExceptionThrower touches only the job it names. The revive step stops at a failed move and leaves that failure as its outcome. |
| JobActions.Rum | fake-koji/src/main/java/org/fakekoji/jobmanager/JenkinsJobUpdater.java:269-272 | The host's new state and outcome are those of RumStep. |
| JobActions.PrimaryExceptionThrower.constructor | fake-koji/src/main/java/org/fakekoji/jobmanager/JenkinsJobUpdater.java:280-284 | Keeps the main step, the final step and the preset result unchanged. |
| JobActions.CallStep | fake-koji/src/main/java/org/fakekoji/jobmanager/JenkinsJobUpdater.java:286-308 | The specification of PrimaryExceptionThrower.call: the main step, then the final step always, and the four-case result. |
| JobActions.PrimaryExceptionThrower.Call | fake-koji/src/main/java/org/fakekoji/jobmanager/JenkinsJobUpdater.java:286-308 | The final step runs even when the main step fails. Both fail: the main step's exception. Only the final fails: its exception. Neither fails: the preset result. |
| JobActions.CreateStep | fake-koji/src/main/java/org/fakekoji/jobmanager/JenkinsJobUpdater.java:180-202 | A mkdir failure throws before the executor is contacted, and nothing changes. Otherwise the config is written and registration is attempted either way. A template failure takes precedence. Success happens iff mkdir, template, write and registration all succeed, and then the job is active with its new config and registered. Only this job is touched, and the archive never is. |
| JobActions.ReviveStep | fake-koji/src/main/java/org/fakekoji/jobmanager/JenkinsJobUpdater.java:204-223 | Registration is attempted even when the move or the write failed. A failed move leaves the directories alone and is the exception thrown. Success happens iff the job was archived and not active and every step succeeds. Then the directory has left the archive and holds the regenerated config. |
| JobActions.RewriteStep | fake-koji/src/main/java/org/fakekoji/jobmanager/JenkinsJobUpdater.java:239-252 | The reload is attempted even when the write failed. A template failure leaves the config unchanged and is the exception thrown. Success happens iff the directory exists and template, write and reload succeed. Then its config is the new template. |
| JobActions.ArchiveStep | fake-koji/src/main/java/org/fakekoji/jobmanager/JenkinsJobUpdater.java:225-237 | A failed move throws and changes nothing, and the delete is not attempted. A successful move carries the directory with its config into the archive before the delete. Success happens iff the job was active, not archived, and move and delete succeed. Then it is no longer registered. |
| JobActions.Succeeded | fake-koji/src/main/java/org/fakekoji/jobmanager/JenkinsJobUpdater.java:200 | Defines the preset result of a successful action: the job's name, success true, no message (the same construction at lines 221, 235 and 250). |
| JobActions.Wrapped | fake-koji/src/main/java/org/fakekoji/jobmanager/JenkinsJobUpdater.java:169-178 | The wrapper never throws. An exception becomes a result under the job's name with success false and the message. A returned result passes through unchanged. |
| JobActions.CreateJob | fake-koji/src/main/java/org/fakekoji/jobmanager/JenkinsJobUpdater.java:180-202 | The host's new state and the outcome are those of CreateStep. |
| JobActions.ReviveJob | fake-koji/src/main/java/org/fakekoji/jobmanager/JenkinsJobUpdater.java:204-223 | The host's new state and the outcome are those of ReviveStep. |
| JobActions.RewriteJob | fake-koji/src/main/java/org/fakekoji/jobmanager/JenkinsJobUpdater.java:239-252 | The host's new state and the outcome are those of RewriteStep. |
| JobActions.ArchiveJob | fake-koji/src/main/java/org/fakekoji/jobmanager/JenkinsJobUpdater.java:225-237 | The host's new state and the outcome are those of ArchiveStep. |
| JenkinsJobUpdater.ToArchive | fake-koji/src/main/java/org/fakekoji/jobmanager/JenkinsJobUpdater.java:139-143 | The jobs to archive are exactly the old jobs that no new job matches by name (noneMatch on toString()). |
| JenkinsJobUpdater.Admissible | fake-koji/src/main/java/org/fakekoji/jobmanager/JenkinsJobUpdater.java:144-159 | Defines the dispositions the second loop may give a new job: revive iff its name is in the archive snapshot; otherwise rewrite when some same-named old job is not equal to it, create when no old job has its name; never archive. |
| JenkinsJobUpdater.MayStay | fake-koji/src/main/java/org/fakekoji/jobmanager/JenkinsJobUpdater.java:149-157 | Defines when the second loop may leave a new job alone: its name is not archived and findAny may yield an old job equal to it. |
| JenkinsJobUpdater.ClassificationTotal | fake-koji/src/main/java/org/fakekoji/jobmanager/JenkinsJobUpdater.java:144-160 | Every new job is revived, rewritten, created or may be left alone. |
| JenkinsJobUpdater.ArchivePriority | fake-koji/src/main/java/org/fakekoji/jobmanager/JenkinsJobUpdater.java:144-148 | A name in the archive snapshot admits revive and nothing else, even when a same-named old job exists. |
| JenkinsJobUpdater.ClassificationFunctional | fake-koji/src/main/java/org/fakekoji/jobmanager/JenkinsJobUpdater.java:149-159 | For any old jobs, at most one disposition is admissible. When no other old job shares the new job's name, a job with a disposition cannot be left alone. |
| JenkinsJobUpdater.Classify | fake-koji/src/main/java/org/fakekoji/jobmanager/JenkinsJobUpdater.java:144-160 | The decision for one new job is admissible, and "no action" happens only when the job may stay. |
| JenkinsJobUpdater.Act | fake-koji/src/main/java/org/fakekoji/jobmanager/JenkinsJobUpdater.java:127-130 | An action touches only its own job, and a returned result is a success under the job's name. |
| JenkinsJobUpdater.Trace | fake-koji/src/main/java/org/fakekoji/jobmanager/JenkinsJobUpdater.java:139-160 | Running a plan yields one result per action. |
| JenkinsJobUpdater.TraceNames | fake-koji/src/main/java/org/fakekoji/jobmanager/JenkinsJobUpdater.java:169-178 | Each result of a plan carries the name of the job it is about, and a failed one carries a message. |
| JenkinsJobUpdater.ArchivePass | fake-koji/src/main/java/org/fakekoji/jobmanager/JenkinsJobUpdater.java:139-143 | The first loop as a plan: it archives every old job whose name no new job has, once each, and does nothing else. |
| JenkinsJobUpdater.SecondPass | fake-koji/src/main/java/org/fakekoji/jobmanager/JenkinsJobUpdater.java:144-160 | The second loop as a plan: it acts at most once per new job, each action has a disposition the branch order admits for that job, and a new job without an action is one that may stay. |
| JenkinsJobUpdater.RewritePass | fake-koji/src/main/java/org/fakekoji/jobmanager/JenkinsJobUpdater.java:119-122 | A selective rewrite as a plan: it rewrites each selected job once and does nothing else. |
| JenkinsJobUpdater.DistinctSize | fake-koji/src/main/java/org/fakekoji/jobmanager/JenkinsJobUpdater.java:139-143 | A plan acting on no job twice has as many actions as jobs. |
| JenkinsJobUpdater.ArchivedJobsReported | fake-koji/src/main/java/org/fakekoji/jobmanager/JenkinsJobUpdater.java:139-143 | There is one archived result per old job whose name no new job has, each under that job's name. The second pass never acts on such a job. |
| JenkinsJobUpdater.ArchivedNamesRevived | fake-koji/src/main/java/org/fakekoji/jobmanager/JenkinsJobUpdater.java:144-148 | A new job whose name was archived when the call began is revived, and given no other action. |
| JenkinsJobUpdater.FollowsOldJobs | fake-koji/src/main/java/org/fakekoji/jobmanager/JenkinsJobUpdater.java:149-159 | For any old jobs, a new job not archived gets a rewrite when some old job has its name but it is not among them, and a create when no old job has its name. It gets no action when it is an old job and no other old job shares its name. |
| JenkinsJobUpdater.ArchivePassSparesNewNames | fake-koji/src/main/java/org/fakekoji/jobmanager/JenkinsJobUpdater.java:137-148 | No name archived by the first loop is a name the second loop acts on. So the snapshot taken before the loops is never stale for the jobs the second loop sees. |
| JenkinsJobUpdater.ActDependsOnSlot | fake-koji/src/main/java/org/fakekoji/jobmanager/JenkinsJobUpdater.java:180-252 | An action's outcome, and what it leaves for its job, depend only on what the world held for that job. |
| JenkinsJobUpdater.TraceLocality | fake-koji/src/main/java/org/fakekoji/jobmanager/JenkinsJobUpdater.java:139-160 | A plan leaves every job it does not name as it was. |
| JenkinsJobUpdater.TraceIndependent | fake-koji/src/main/java/org/fakekoji/jobmanager/JenkinsJobUpdater.java:139-160 | With distinct names in a plan, each action's result and final state for its job are those of the action run alone on the initial world, whatever the order. |
| JenkinsJobUpdater.ReconciliationNamesDistinct | fake-koji/src/main/java/org/fakekoji/jobmanager/JenkinsJobUpdater.java:139-160 | With unique old and new names, a reconciliation never acts twice on one name. |
| JenkinsJobUpdater.SuccessLeavesNewNamesActive | fake-koji/src/main/java/org/fakekoji/jobmanager/JenkinsJobUpdater.java:144-160 | After a reconciliation with unique names in which every result succeeded, no new job's name remains in the archive. |
| JenkinsJobUpdater.RerunIsNoOp | fake-koji/src/main/java/org/fakekoji/jobmanager/JenkinsJobUpdater.java:139-160 | With unique names and none archived, a call whose old and new jobs are the same takes no action, changes nothing and reports four empty groups. |
| JenkinsJobUpdater.SuccessfulUpdateIsIdempotent | fake-koji/src/main/java/org/fakekoji/jobmanager/JenkinsJobUpdater.java:125-167 | After a call with unique names in which every result succeeded, calling again with the new jobs as the old ones, against the resulting host, takes no action and reports nothing. |
| JenkinsJobUpdater.Select | fake-koji/src/main/java/org/fakekoji/jobmanager/JenkinsJobUpdater.java:132-135 | One group's list: as many results as the plan has actions of that disposition, each one of the plan's results. |
| JenkinsJobUpdater.Report | fake-koji/src/main/java/org/fakekoji/jobmanager/JenkinsJobUpdater.java:161-166 | Defines the JobUpdateResults a plan returns: its results grouped as created, archived, rewritten and revived, each in plan order. |
| JenkinsJobUpdater.Filed | fake-koji/src/main/java/org/fakekoji/jobmanager/JenkinsJobUpdater.java:141-159 | Defines an `add` to the list of the action's disposition. |
| JenkinsJobUpdater.FiledAppendsToOneGroup | fake-koji/src/main/java/org/fakekoji/jobmanager/JenkinsJobUpdater.java:141-159 | Filing a result appends it at the end of its disposition's list, leaves the other three lists unchanged, and grows the total by one. |
| JenkinsJobUpdater.ReportFilesEveryResult | fake-koji/src/main/java/org/fakekoji/jobmanager/JenkinsJobUpdater.java:132-166 | Every action's result lands in exactly one of the four lists: the lists together hold as many results as the plan has actions, and each list is that disposition's selection. |
| JenkinsJobUpdater.Apply | fake-koji/src/main/java/org/fakekoji/jobmanager/JenkinsJobUpdater.java:127-130 | Running an action's update function changes the host as Act says. |
| JenkinsJobUpdater.ArchiveOldJobs | fake-koji/src/main/java/org/fakekoji/jobmanager/JenkinsJobUpdater.java:139-143 | The first loop archives each job to archive once and nothing else. Host and archived list equal the trace of that plan. |
| JenkinsJobUpdater.ReconcileNewJobs | fake-koji/src/main/java/org/fakekoji/jobmanager/JenkinsJobUpdater.java:144-160 | The second loop gives each new job one admissible disposition or none, judged against the snapshot. Each result is filed in its group. Host and groups equal the trace of both passes. |
| JenkinsJobUpdater.Update | fake-koji/src/main/java/org/fakekoji/jobmanager/JenkinsJobUpdater.java:125-167 | An unlistable archive root aborts before any action. Otherwise the host and the four groups are those of an archive pass followed by a second pass judged against the archive as listed before either loop. |
| JenkinsJobUpdater.OnPlatform | fake-koji/src/main/java/org/fakekoji/jobmanager/JenkinsJobUpdater.java:65-66 | Defines update(Platform)'s filter: a task job whose platform id is the given id. |
| JenkinsJobUpdater.OfTaskId | fake-koji/src/main/java/org/fakekoji/jobmanager/JenkinsJobUpdater.java:77-78 | Defines update(Task)'s filter: a task job whose task id is the given id. |
| JenkinsJobUpdater.Selected | fake-koji/src/main/java/org/fakekoji/jobmanager/JenkinsJobUpdater.java:119-120 | Defines the jobs the selective rewrite acts on: those of the universe the filter accepts. |
| JenkinsJobUpdater.Universe | fake-koji/src/main/java/org/fakekoji/jobmanager/JenkinsJobUpdater.java:99-117 | The universe exists iff every project parses, and then it is the union of their jobs. Otherwise it is the error of the first project that fails. |
| JenkinsJobUpdater.RewriteMatching | fake-koji/src/main/java/org/fakekoji/jobmanager/JenkinsJobUpdater.java:88-123 | A parse failure aborts before any rewrite. Otherwise each matching job of the universe is rewritten exactly once, nothing else is done, and the results are the trace of that plan. |
| JenkinsJobUpdater.SelectiveReport | fake-koji/src/main/java/org/fakekoji/jobmanager/JenkinsJobUpdater.java:119-122 | A selective rewrite reports exactly one result per selected job, under that job's name. |
| JenkinsJobUpdater.UpdatePlatform | fake-koji/src/main/java/org/fakekoji/jobmanager/JenkinsJobUpdater.java:64-74 | Only task jobs whose platform id is the argument's are rewritten, each once. Created, archived and revived are empty. |
| JenkinsJobUpdater.UpdateTask | fake-koji/src/main/java/org/fakekoji/jobmanager/JenkinsJobUpdater.java:76-86 | Only task jobs whose task id is the argument's are rewritten, each once. Created, archived and revived are empty. |
| BuildProviders.Storage.Contains | fake-koji/src/main/java/org/fakekoji/jobmanager/manager/BuildProviderManager.java:22 | An id is contained exactly when the storage holds an item under it. |
| BuildProviders.Storage.Store | fake-koji/src/main/java/org/fakekoji/jobmanager/manager/BuildProviderManager.java:25 | Storing puts the item under its id, replacing whatever was there, and changes no other id. |
| BuildProviders.Storage.Load | fake-koji/src/main/java/org/fakekoji/jobmanager/manager/BuildProviderManager.java:34 | Loading a contained id returns the item stored under it. |
| BuildProviders.Storage.LoadAll | fake-koji/src/main/java/org/fakekoji/jobmanager/manager/BuildProviderManager.java:39 | Lists every stored item once, each under its own id. |
| BuildProviders.ListingSize | fake-koji/src/main/java/org/fakekoji/jobmanager/manager/BuildProviderManager.java:38-40 | A listing has as many entries as the storage has ids. |
| BuildProviders.BuildProviderManager.constructor | fake-koji/src/main/java/org/fakekoji/jobmanager/manager/BuildProviderManager.java:16-18 | The manager keeps the storage it is given. |
| BuildProviders.BuildProviderManager.Create | fake-koji/src/main/java/org/fakekoji/jobmanager/manager/BuildProviderManager.java:21-27 | A stored id fails with "Build provider with id … already exists" and storage unchanged. A fresh id stores the provider under its own id and returns normally. |
| BuildProviders.BuildProviderManager.Read | fake-koji/src/main/java/org/fakekoji/jobmanager/manager/BuildProviderManager.java:30-35 | Succeeds iff the id is stored, with the stored provider. Otherwise it fails with "No build provider with id: " + id. |
| BuildProviders.BuildProviderManager.ReadAll | fake-koji/src/main/java/org/fakekoji/jobmanager/manager/BuildProviderManager.java:38-40 | Returns exactly the stored providers, one per id. |
| BuildProviders.BuildProviderManager.Update | fake-koji/src/main/java/org/fakekoji/jobmanager/manager/BuildProviderManager.java:43-45 | Returns normally and changes nothing. |
| BuildProviders.BuildProviderManager.Delete | fake-koji/src/main/java/org/fakekoji/jobmanager/manager/BuildProviderManager.java:48-50 | Returns normally and changes nothing. |
| BuildProviders.BuildProviderManager.CreateThenRead | fake-koji/src/main/java/org/fakekoji/jobmanager/manager/BuildProviderManager.java:25-34 | Reading an id just created under a fresh id gives back that provider. |

## Left out

- `update(Project, Project)` (JenkinsJobUpdater.java:48-62) is not modelled, because `JDKProjectParser` is not part of this model. Its body only parses both projects and calls `update(Set, Set)`, and that is modelled as `Update` on the parsed sets.
- `JDKProjectParser`, `ConfigManager` and `Storage.loadAll` of project storages are not part of this model. The selective rewrite takes each stored project's parse outcome as a parameter, in storage order. A parse failure aborts the whole call with that project's error, as the rethrown RuntimeException does. A `StorageException` from `loadAll` itself is not modelled.
- `Job.toString()` and `Job.generateTemplate()` are not part of this model. They are supplied as the `Rendering` parameter: a name function, and a template function that may fail with a message.
- The export variable names (`JDK_VERSION_VAR`, `OJDK_VAR`, `PACKAGE_NAME_VAR`, `PROJECT_NAME_VAR`) are constants of a class that is not part of this model. They are the `ExportKeys` parameter.
- The filesystem (`File.mkdir`, `File.list`, `Utils.moveDir`, `Utils.writeToFile`) and the Jenkins CLI over SSH are abstract steps on `World`. Which of them throw, and with what message, is given by the fault oracle in `Settings`. Natural failures use the path as the message.
- `Utils.moveDir` is not part of this model. The model assumes it fails when the source is missing or the target already exists.
- The executor's own state beyond "registered or not" is not modelled.
- A fault named in `Settings` applies to every attempt of that primitive on that name within a call; transient failures are not modelled.
- Absolute-path resolution and the directory hierarchy are reduced to `root + "/" + name`.
- An exception with a null message (`e.getMessage()` returning null) is not modelled: every failure carries a message.
- Logging and the `synchronized` modifier of `call()` are left out, because they are side channels and concurrency respectively.
- `Objects.requireNonNull` on the archive listing is modelled as the `ListOp` fault.
- Java object identity (`this == o`) is not modelled. It is subsumed by value equality, which it implies.
- The equality of products, tasks, platforms, variants and build providers is value equality of their model datatypes, since their classes are not part of this model.
- Job sets are sets of values: `Set<Job>` and `Collectors.toSet()` (JenkinsJobUpdater.java:117) are taken to drop duplicates by value equality, which assumes `Job.hashCode` agrees with `equals`. `Job` is not part of this model.
- `ManagementResult` is returned as null by the manager. It is `Success(())` here.
- `StorageException` from the build-provider storage is not modelled.
- `Storage<BuildProvider>` is not part of this model. It is modelled as a map from id to item: `contains` is key membership, `store` overwrites the key, `load` returns the item under a contained key, and `loadAll` lists each stored item once, in an unspecified order.
- `RewriteMatching` iterates the universe directly and filters inside its loop. A Java sequential stream interleaves filter and map per element in the same way, and the filter is pure, so the order of rewrites is likewise left unspecified.

=== FILE: BuildProviderManager.dfy ===
/**
 * The build-provider manager: create, read and list build providers kept in
 * a key-value storage, keyed by their id. Updating and deleting are not
 * implemented by the manager and succeed without doing anything.
 */
module BuildProviders {
  import opened Wrappers
  import opened KojiModel

  /** The checked exception the manager throws for a missing or duplicate id. */
  datatype ManagementException = ManagementException(message: string)

  /** The storage the manager is given: items keyed by id. */
  class Storage {
    var items: map<string, BuildProvider>

    constructor (initial: map<string, BuildProvider>)
      ensures items == initial
    {
      items := initial;
    }

    predicate Contains(id: string)
      reads this
    {
      id in items
    }

    method Store(id: string, item: BuildProvider)
      modifies this
      ensures items == old(items)[id := item]
    {
      items := items[id := item];
    }

    method Load(id: string) returns (item: BuildProvider)
      requires id in items
      ensures item == items[id]
    {
      item := items[id];
    }

    /** Every stored item exactly once, in an order the storage chooses. */
    method LoadAll() returns (all: seq<BuildProvider>, ghost ids: seq<string>)
      ensures Listing(items, ids, all)
    {
      all, ids := [], [];
      var rest := items.Keys;
      while rest != {}
        invariant rest <= items.Keys
        invariant |all| == |ids|
        invariant forall i :: 0 <= i < |ids| ==> ids[i] in items && ids[i] !in rest && all[i] == items[ids[i]]
        invariant forall i, k :: 0 <= i < k < |ids| ==> ids[i] != ids[k]
        invariant forall id :: id in items ==> id in rest || id in ids
        decreases rest
      {
        var id :| id in rest;
        all, ids := all + [items[id]], ids + [id];
        rest := rest - {id};
      }
    }
  }

  /**
   * `all` lists the items of `items` in the order `ids`: one entry per key,
   * no key twice, each entry the item stored under its key.
   */
  ghost predicate Listing(items: map<string, BuildProvider>, ids: seq<string>, all: seq<BuildProvider>) {
    && |all| == |ids|
    && (forall i :: 0 <= i < |ids| ==> ids[i] in items && all[i] == items[ids[i]])
    && (forall i, k :: 0 <= i < k < |ids| ==> ids[i] != ids[k])
    && (forall id :: id in items ==> id in ids)
  }

  /** A listing holds exactly as many items as the storage. */
  lemma {:induction false} ListingSize(items: map<string, BuildProvider>, ids: seq<string>, all: seq<BuildProvider>)
    requires Listing(items, ids, all)
    ensures |all| == |items|
  {
    var keys := set i | 0 <= i < |ids| :: ids[i];
    assert keys == items.Keys;
    IndexImageSize(ids);
  }

  lemma {:induction false} IndexImageSize(ids: seq<string>)
    requires forall i, k :: 0 <= i < k < |ids| ==> ids[i] != ids[k]
    ensures |set i | 0 <= i < |ids| :: ids[i]| == |ids|
  {
    if ids != [] {
      var init := ids[..|ids| - 1];
      IndexImageSize(init);
      var last := ids[|ids| - 1];
      assert (set i | 0 <= i < |ids| :: ids[i]) == (set i | 0 <= i < |init| :: init[i]) + {last};
      assert last !in (set i | 0 <= i < |init| :: init[i]);
    }
  }

  class BuildProviderManager {
    const storage: Storage

    constructor (storage: Storage)
      ensures this.storage == storage
    {
      this.storage := storage;
    }

    /**
     * Store a new build provider under its id; a provider already stored
     * under that id is an error, and then nothing is stored.
     */
    method Create(bp: BuildProvider) returns (r: Result<(), ManagementException>)
      modifies storage
      ensures old(storage.Contains(bp.id)) ==>
        && r == Failure(ManagementException("Build provider with id " + bp.id + " already exists"))
        && storage.items == old(storage.items)
      ensures !old(storage.Contains(bp.id)) ==>
        r == Success(()) && storage.items == old(storage.items)[bp.id := bp]
    {
      if storage.Contains(bp.id) {
        return Failure(ManagementException("Build provider with id " + bp.id + " already exists"));
      }
      storage.Store(bp.id, bp);
      r := Success(());
    }

    /** The build provider stored under `id`, or an error naming the id when there is none. */
    method Read(id: string) returns (r: Result<BuildProvider, ManagementException>)
      ensures r.Success? <==> id in storage.items
      ensures r.Success? ==> r.value == storage.items[id]
      ensures r.Failure? ==> r.error == ManagementException("No build provider with id: " + id)
    {
      if !storage.Contains(id) {
        return Failure(ManagementException("No build provider with id: " + id));
      }
      var bp := storage.Load(id);
      r := Success(bp);
    }

    /** Every stored build provider exactly once. */
    method ReadAll() returns (r: seq<BuildProvider>, ghost ids: seq<string>)
      ensures Listing(storage.items, ids, r)
      ensures |r| == |storage.items|
      ensures forall bp :: bp in r <==> exists id :: id in storage.items && storage.items[id] == bp
    {
      r, ids := storage.LoadAll();
      ListingSize(storage.items, ids, r);
      forall bp | bp in r
        ensures exists id :: id in storage.items && storage.items[id] == bp
      {
        var i :| 0 <= i < |r| && r[i] == bp;
        assert storage.items[ids[i]] == bp;
      }
      forall id | id in storage.items
        ensures storage.items[id] in r
      {
        var i :| 0 <= i < |ids| && ids[i] == id;
        assert r[i] == storage.items[id];
      }
    }

    /** Not implemented by the manager: succeeds and changes nothing. */
    method Update(id: string, bp: BuildProvider) returns (r: Result<(), ManagementException>)
      ensures r == Success(())
    {
      r := Success(());
    }

    /** Not implemented by the manager: succeeds and changes nothing. */
    method Delete(id: string) returns (r: Result<(), ManagementException>)
      ensures r == Success(())
    {
      r := Success(());
    }

    /** A build provider created under a fresh id reads back unchanged. */
    method CreateThenRead(bp: BuildProvider) returns (r: Result<BuildProvider, ManagementException>)
      modifies storage
      requires !storage.Contains(bp.id)
      ensures r == Success(bp)
    {
      var created := Create(bp);
      r := Read(bp.id);
    }
  }
}

=== FILE: Host.dfy ===
/**
 * The outside world the updater changes: the Jenkins jobs root, the archive
 * root and the jobs registered on the Jenkins executor. Each primitive
 * operation on it may fail; which ones fail is given by a fault oracle in the
 * settings, beside the failures the world itself causes (a directory that is
 * already there, or missing).
 */
module Host {
  import opened Wrappers

  datatype Root = JobsRoot | ArchiveRoot

  /** One filesystem or executor operation, on the job directory or registration it names. */
  datatype Primitive =
    | MkdirOp(name: string)               // File.mkdir of the job's directory under the jobs root
    | WriteOp(name: string)               // Utils.writeToFile of config.xml in the job's active directory
    | MoveOp(from: Root, name: string)    // Utils.moveDir of the job's directory from one root to the other
    | CreateRemoteOp(name: string)        // register the job on the executor (createManuallyUploadedJob)
    | UpdateRemoteOp(name: string)        // reload the job on the executor (updateManuallyUpdatedJob)
    | DeleteRemoteOp(name: string)        // delete the job on the executor (deleteJobs)
    | ListOp                              // File.list of the archive root

  /**
   * The two roots the settings point at, and the fault oracle: a primitive in
   * `faults` fails with the message it maps to.
   */
  datatype Settings = Settings(jobsRoot: string, archiveRoot: string, faults: map<Primitive, string>)

  datatype Outcome = Ok | Fail(message: string)

  /**
   * Directories under the jobs root and under the archive root, each mapped to
   * the content of its config.xml (None: the directory has none yet), and the
   * names of the jobs the executor has registered.
   */
  datatype World = World(jobs: map<string, Option<string>>, archive: map<string, Option<string>>, registered: set<string>)

  /** Everything the world holds about one job name. */
  datatype Slot = Slot(active: Option<Option<string>>, archived: Option<Option<string>>, registered: bool)

  const CONFIG_FILE := "config.xml"

  function Path(dir: string, name: string): string {
    dir + "/" + name
  }

  function RootPath(s: Settings, root: Root): string {
    if root == JobsRoot then s.jobsRoot else s.archiveRoot
  }

  function Lookup(m: map<string, Option<string>>, name: string): Option<Option<string>> {
    if name in m then Some(m[name]) else None
  }

  function SlotOf(w: World, name: string): Slot {
    Slot(Lookup(w.jobs, name), Lookup(w.archive, name), name in w.registered)
  }

  /** Nothing about any job other than `name` differs between `w` and `w'`. */
  ghost predicate OnlyTouches(w: World, w': World, name: string) {
    forall n :: n != name ==> SlotOf(w', n) == SlotOf(w, n)
  }

  /** File.mkdir: refused when the directory exists, or by the oracle, with the same message. */
  function MkdirStep(w: World, s: Settings, name: string): (r: (World, Outcome))
    ensures OnlyTouches(w, r.0, name)
  {
    if MkdirOp(name) in s.faults || name in w.jobs then
      (w, Fail("Could't create file: " + Path(s.jobsRoot, name)))
    else
      (w.(jobs := w.jobs[name := None]), Ok)
  }

  /** Writing config.xml into the job's active directory, which must exist. */
  function WriteStep(w: World, s: Settings, name: string, body: string): (r: (World, Outcome))
    ensures OnlyTouches(w, r.0, name)
  {
    if WriteOp(name) in s.faults then (w, Fail(s.faults[WriteOp(name)]))
    else if name !in w.jobs then (w, Fail(Path(Path(s.jobsRoot, name), CONFIG_FILE)))
    else (w.(jobs := w.jobs[name := Some(body)]), Ok)
  }

  /**
   * Moving a job's directory, with its content, from one root to the other: the
   * source must exist and the target must not.
   */
  function MoveStep(w: World, s: Settings, from: Root, name: string): (r: (World, Outcome))
    ensures OnlyTouches(w, r.0, name)
  {
    var to := if from == JobsRoot then ArchiveRoot else JobsRoot;
    var src := if from == JobsRoot then w.jobs else w.archive;
    var dst := if from == JobsRoot then w.archive else w.jobs;
    if MoveOp(from, name) in s.faults then (w, Fail(s.faults[MoveOp(from, name)]))
    else if name !in src then (w, Fail(Path(RootPath(s, from), name)))
    else if name in dst then (w, Fail(Path(RootPath(s, to), name)))
    else
      var src', dst' := src - {name}, dst[name := src[name]];
      if from == JobsRoot then (w.(jobs := src', archive := dst'), Ok)
      else (w.(jobs := dst', archive := src'), Ok)
  }

  /** Registering (or reloading) a job on the executor; afterwards the executor knows it. */
  function RegisterStep(w: World, s: Settings, op: Primitive): (r: (World, Outcome))
    requires op.CreateRemoteOp? || op.UpdateRemoteOp?
    ensures OnlyTouches(w, r.0, op.name)
  {
    if op in s.faults then (w, Fail(s.faults[op]))
    else (w.(registered := w.registered + {op.name}), Ok)
  }

  /** Deleting a job on the executor. */
  function DeleteRemoteStep(w: World, s: Settings, name: string): (r: (World, Outcome))
    ensures OnlyTouches(w, r.0, name)
  {
    if DeleteRemoteOp(name) in s.faults then (w, Fail(s.faults[DeleteRemoteOp(name)]))
    else (w.(registered := w.registered - {name}), Ok)
  }

  // Each primitive's outcome, and what it leaves for its own job, depend only on
  // what the world held for that job.

  lemma MkdirDependsOnSlot(w1: World, w2: World, s: Settings, name: string)
    requires SlotOf(w1, name) == SlotOf(w2, name)
    ensures MkdirStep(w1, s, name).1 == MkdirStep(w2, s, name).1
    ensures SlotOf(MkdirStep(w1, s, name).0, name) == SlotOf(MkdirStep(w2, s, name).0, name)
  {
  }

  lemma WriteDependsOnSlot(w1: World, w2: World, s: Settings, name: string, body: string)
    requires SlotOf(w1, name) == SlotOf(w2, name)
    ensures WriteStep(w1, s, name, body).1 == WriteStep(w2, s, name, body).1
    ensures SlotOf(WriteStep(w1, s, name, body).0, name) == SlotOf(WriteStep(w2, s, name, body).0, name)
  {
  }

  lemma MoveDependsOnSlot(w1: World, w2: World, s: Settings, from: Root, name: string)
    requires SlotOf(w1, name) == SlotOf(w2, name)
    ensures MoveStep(w1, s, from, name).1 == MoveStep(w2, s, from, name).1
    ensures SlotOf(MoveStep(w1, s, from, name).0, name) == SlotOf(MoveStep(w2, s, from, name).0, name)
  {
  }

  lemma RegisterDependsOnSlot(w1: World, w2: World, s: Settings, op: Primitive)
    requires op.CreateRemoteOp? || op.UpdateRemoteOp?
    requires SlotOf(w1, op.name) == SlotOf(w2, op.name)
    ensures RegisterStep(w1, s, op).1 == RegisterStep(w2, s, op).1
    ensures SlotOf(RegisterStep(w1, s, op).0, op.name) == SlotOf(RegisterStep(w2, s, op).0, op.name)
  {
  }

  lemma DeleteDependsOnSlot(w1: World, w2: World, s: Settings, name: string)
    requires SlotOf(w1, name) == SlotOf(w2, name)
    ensures DeleteRemoteStep(w1, s, name).1 == DeleteRemoteStep(w2, s, name).1
    ensures SlotOf(DeleteRemoteStep(w1, s, name).0, name) == SlotOf(DeleteRemoteStep(w2, s, name).0, name)
  {
  }

  /** The jobs root, the archive root and the executor, changed in place. */
  class JenkinsHost {
    var jobs: map<string, Option<string>>
    var archive: map<string, Option<string>>
    var registered: set<string>
    const settings: Settings

    function State(): World
      reads this
    {
      World(jobs, archive, registered)
    }

    constructor (settings: Settings, initial: World)
      ensures this.settings == settings && State() == initial
    {
      this.settings := settings;
      jobs, archive, registered := initial.jobs, initial.archive, initial.registered;
    }

    method Mkdir(name: string) returns (o: Outcome)
      modifies this
      ensures (State(), o) == MkdirStep(old(State()), settings, name)
    {
      if MkdirOp(name) in settings.faults || name in jobs {
        o := Fail("Could't create file: " + Path(settings.jobsRoot, name));
      } else {
        jobs := jobs[name := None];
        o := Ok;
      }
    }

    method WriteConfig(name: string, body: string) returns (o: Outcome)
      modifies this
      ensures (State(), o) == WriteStep(old(State()), settings, name, body)
    {
      if WriteOp(name) in settings.faults {
        o := Fail(settings.faults[WriteOp(name)]);
      } else if name !in jobs {
        o := Fail(Path(Path(settings.jobsRoot, name), CONFIG_FILE));
      } else {
        jobs := jobs[name := Some(body)];
        o := Ok;
      }
    }

    method MoveDir(from: Root, name: string) returns (o: Outcome)
      modifies this
      ensures (State(), o) == MoveStep(old(State()), settings, from, name)
    {
      var to := if from == JobsRoot then ArchiveRoot else JobsRoot;
      var src := if from == JobsRoot then jobs else archive;
      var dst := if from == JobsRoot then archive else jobs;
      if MoveOp(from, name) in settings.faults {
        o := Fail(settings.faults[MoveOp(from, name)]);
      } else if name !in src {
        o := Fail(Path(RootPath(settings, from), name));
      } else if name in dst {
        o := Fail(Path(RootPath(settings, to), name));
      } else {
        dst := dst[name := src[name]];
        src := src - {name};
        if from == JobsRoot {
          jobs, archive := src, dst;
        } else {
          jobs, archive := dst, src;
        }
        o := Ok;
      }
    }

    method Register(op: Primitive) returns (o: Outcome)
      requires op.CreateRemoteOp? || op.UpdateRemoteOp?
      modifies this
      ensures (State(), o) == RegisterStep(old(State()), settings, op)
    {
      if op in settings.faults {
        o := Fail(settings.faults[op]);
      } else {
        registered := registered + {op.name};
        o := Ok;
      }
    }

    method DeleteRemote(name: string) returns (o: Outcome)
      modifies this
      ensures (State(), o) == DeleteRemoteStep(old(State()), settings, name)
    {
      if DeleteRemoteOp(name) in settings.faults {
        o := Fail(settings.faults[DeleteRemoteOp(name)]);
      } else {
        registered := registered - {name};
        o := Ok;
      }
    }

    /** The names under the archive root, or the failure to list them. */
    method ListArchive() returns (r: Result<set<string>, string>)
      ensures ListOp in settings.faults ==> r == Failure(settings.faults[ListOp])
      ensures ListOp !in settings.faults ==> r == Success(archive.Keys)
    {
      if ListOp in settings.faults {
        r := Failure(settings.faults[ListOp]);
      } else {
        r := Success(archive.Keys);
      }
    }
  }
}
=== FILE: JenkinsJobUpdater.dfy ===
/**
 * JenkinsJobUpdater: reconciling an old and a new set of jobs against the
 * Jenkins host (archive, revive, rewrite or create each job), and rewriting
 * every job of the stored projects that runs on a given platform or task.
 */
module JenkinsJobUpdater {
  import opened Wrappers
  import opened KojiModel
  import opened Jobs
  import opened Host
  import opened JobActions

  /** The four ordered result groups a call returns. */
  datatype JobUpdateResults = JobUpdateResults(
    created: seq<JobUpdateResult>,
    archived: seq<JobUpdateResult>,
    rewritten: seq<JobUpdateResult>,
    revived: seq<JobUpdateResult>)

  /** What a job is acted on with; a job left as it is gets no action at all. */
  datatype Disposition = Create | Archive | Rewrite | Revive

  datatype Action = Action(kind: Disposition, job: Job)

  // ---------------------------------------------------------------------------
  // Classification
  // ---------------------------------------------------------------------------

  /** The names (toString()) of a set of jobs. */
  function Names(rd: Rendering, jobs: set<Job>): set<string> {
    set j | j in jobs :: NameOf(rd, j)
  }

  /** No two distinct jobs of the set share a name. */
  ghost predicate UniqueNames(rd: Rendering, jobs: set<Job>) {
    forall a, b :: a in jobs && b in jobs && NameOf(rd, a) == NameOf(rd, b) ==> a == b
  }

  /** The first pass archives every old job whose name no new job has. */
  function ToArchive(rd: Rendering, oldJobs: set<Job>, newJobs: set<Job>): (r: set<Job>)
    ensures forall j :: j in r <==>
      j in oldJobs && forall n :: n in newJobs ==> NameOf(rd, n) != NameOf(rd, j)
  {
    set j | j in oldJobs && NameOf(rd, j) !in Names(rd, newJobs)
  }

  /**
   * The dispositions the second pass may give the new job `j`, where `archived`
   * is the snapshot of the archive root. A name in the archive means revive,
   * whatever the old jobs are; otherwise the old jobs are searched by name
   * (findAny): no match means create, and a match that is not equal to `j`
   * means rewrite. When two old jobs share `j`'s name, one equal to it and one
   * not, the source does not say which one findAny yields. "Not equal" is the
   * inequality of the jobs, which for a task job is `!Equals` (see
   * `Jobs.UnequalIsContentChanged`).
   */
  predicate Admissible(rd: Rendering, oldJobs: set<Job>, archived: set<string>, j: Job, d: Disposition) {
    match d
    case Revive => NameOf(rd, j) in archived
    case Rewrite =>
      NameOf(rd, j) !in archived && exists o :: o in oldJobs && NameOf(rd, o) == NameOf(rd, j) && o != j
    case Create => NameOf(rd, j) !in archived && NameOf(rd, j) !in Names(rd, oldJobs)
    case Archive => false
  }

  /** The second pass may leave `j` alone: its name is not archived and findAny may yield `j` itself. */
  predicate MayStay(rd: Rendering, oldJobs: set<Job>, archived: set<string>, j: Job) {
    NameOf(rd, j) !in archived && j in oldJobs
  }

  /** Every new job gets some disposition or may stay. */
  lemma ClassificationTotal(rd: Rendering, oldJobs: set<Job>, archived: set<string>, j: Job)
    ensures || MayStay(rd, oldJobs, archived, j)
            || Admissible(rd, oldJobs, archived, j, Revive)
            || Admissible(rd, oldJobs, archived, j, Rewrite)
            || Admissible(rd, oldJobs, archived, j, Create)
  {
  }

  /** An archived name is always revived: never created, rewritten or left alone. */
  lemma ArchivePriority(rd: Rendering, oldJobs: set<Job>, archived: set<string>, j: Job, d: Disposition)
    requires NameOf(rd, j) in archived
    ensures Admissible(rd, oldJobs, archived, j, d) <==> d == Revive
    ensures !MayStay(rd, oldJobs, archived, j)
  {
  }

  /** No old job other than `j` itself has `j`'s name. */
  ghost predicate SoleOfItsName(rd: Rendering, oldJobs: set<Job>, j: Job) {
    forall o :: o in oldJobs && NameOf(rd, o) == NameOf(rd, j) ==> o == j
  }

  /**
   * The second pass is a function of the old jobs and the snapshot: at most one
   * disposition is admissible for a new job, whatever names the old jobs share.
   * When no other old job has its name, a job with a disposition cannot stay
   * either, so findAny's choice does not matter.
   */
  lemma {:induction false} ClassificationFunctional(
    rd: Rendering, oldJobs: set<Job>, archived: set<string>, j: Job, d1: Disposition, d2: Disposition)
    requires Admissible(rd, oldJobs, archived, j, d1)
    ensures Admissible(rd, oldJobs, archived, j, d2) ==> d1 == d2
    ensures SoleOfItsName(rd, oldJobs, j) ==> !MayStay(rd, oldJobs, archived, j)
  {
  }

  // ---------------------------------------------------------------------------
  // Plans: the actions one call takes, in the order it takes them
  // ---------------------------------------------------------------------------

  function JobsOf(plan: seq<Action>): set<Job> {
    set i | 0 <= i < |plan| :: plan[i].job
  }

  /** No job is acted on twice. */
  ghost predicate Distinct(plan: seq<Action>) {
    forall i, k :: 0 <= i < k < |plan| ==> plan[i].job != plan[k].job
  }

  /** The first pass: one archive action for each job to archive, and nothing else. */
  ghost predicate ArchivePass(rd: Rendering, oldJobs: set<Job>, newJobs: set<Job>, pass: seq<Action>) {
    && Distinct(pass)
    && (forall i :: 0 <= i < |pass| ==> pass[i].kind == Archive)
    && JobsOf(pass) == ToArchive(rd, oldJobs, newJobs)
  }

  /**
   * The second pass: at most one action per new job, each with an admissible
   * disposition, and no action only for a job that may stay.
   */
  ghost predicate SecondPass(rd: Rendering, oldJobs: set<Job>, newJobs: set<Job>, archived: set<string>, pass: seq<Action>) {
    && Distinct(pass)
    && (forall i :: 0 <= i < |pass| ==>
          pass[i].job in newJobs && Admissible(rd, oldJobs, archived, pass[i].job, pass[i].kind))
    && (forall j :: j in newJobs && j !in JobsOf(pass) ==> MayStay(rd, oldJobs, archived, j))
  }

  /** One action's effect and outcome, by its disposition. */
  function Act(w: World, s: Settings, rd: Rendering, a: Action): (r: (World, Thrown<JobUpdateResult>))
    ensures OnlyTouches(w, r.0, NameOf(rd, a.job))
    ensures r.1.Returned? ==> r.1.value == Succeeded(NameOf(rd, a.job))
  {
    match a.kind
    case Create => CreateStep(w, s, rd, a.job)
    case Archive => ArchiveStep(w, s, rd, a.job)
    case Rewrite => RewriteStep(w, s, rd, a.job)
    case Revive => ReviveStep(w, s, rd, a.job)
  }

  /** The world after running a plan, and each action's wrapped result in plan order. */
  function Trace(w: World, s: Settings, rd: Rendering, plan: seq<Action>): (r: (World, seq<JobUpdateResult>))
    ensures |r.1| == |plan|
    decreases |plan|
  {
    if plan == [] then (w, [])
    else
      var (w1, outs) := Trace(w, s, rd, plan[..|plan| - 1]);
      var a := plan[|plan| - 1];
      var (w2, t) := Act(w1, s, rd, a);
      (w2, outs + [Wrapped(NameOf(rd, a.job), t)])
  }

  /** The results of the actions of one disposition, in plan order. */
  function Select(plan: seq<Action>, outs: seq<JobUpdateResult>, d: Disposition): (r: seq<JobUpdateResult>)
    requires |plan| == |outs|
    ensures |r| == |JobsWith(plan, d)|
    ensures forall o :: o in r ==> o in outs
    decreases |plan|
  {
    if plan == [] then []
    else
      Select(plan[..|plan| - 1], outs[..|outs| - 1], d)
        + (if plan[|plan| - 1].kind == d then [outs[|outs| - 1]] else [])
  }

  /** The jobs acted on with one disposition, in plan order. */
  function JobsWith(plan: seq<Action>, d: Disposition): seq<Job>
    decreases |plan|
  {
    if plan == [] then []
    else JobsWith(plan[..|plan| - 1], d) + (if plan[|plan| - 1].kind == d then [plan[|plan| - 1].job] else [])
  }

  /** The results, grouped by disposition. */
  function Report(plan: seq<Action>, outs: seq<JobUpdateResult>): JobUpdateResults
    requires |plan| == |outs|
  {
    JobUpdateResults(Select(plan, outs, Create), Select(plan, outs, Archive),
                     Select(plan, outs, Rewrite), Select(plan, outs, Revive))
  }

  // ---------------------------------------------------------------------------
  // What a plan reports
  // ---------------------------------------------------------------------------

  /** Every result is filed under the name of the job it is about, and a failed one carries a message. */
  lemma {:induction false} TraceNames(w: World, s: Settings, rd: Rendering, plan: seq<Action>)
    ensures forall i :: 0 <= i < |plan| ==> Trace(w, s, rd, plan).1[i].jobName == NameOf(rd, plan[i].job)
    ensures forall i :: 0 <= i < |plan| ==>
      Trace(w, s, rd, plan).1[i].success || Trace(w, s, rd, plan).1[i].message.Some?
    decreases |plan|
  {
    if plan != [] {
      var prefix := plan[..|plan| - 1];
      TraceNames(w, s, rd, prefix);
      assert forall i :: 0 <= i < |prefix| ==> prefix[i] == plan[i];
    }
  }

  lemma {:induction false} SelectNames(rd: Rendering, plan: seq<Action>, outs: seq<JobUpdateResult>, d: Disposition)
    requires |plan| == |outs|
    requires forall i :: 0 <= i < |plan| ==> outs[i].jobName == NameOf(rd, plan[i].job)
    ensures |Select(plan, outs, d)| == |JobsWith(plan, d)|
    ensures forall i :: 0 <= i < |Select(plan, outs, d)| ==>
      Select(plan, outs, d)[i].jobName == NameOf(rd, JobsWith(plan, d)[i])
    decreases |plan|
  {
    if plan != [] {
      var prefix, front := plan[..|plan| - 1], outs[..|outs| - 1];
      assert forall i :: 0 <= i < |prefix| ==> prefix[i] == plan[i] && front[i] == outs[i];
      SelectNames(rd, prefix, front, d);
    }
  }

  lemma {:induction false} JobsWithAppend(p: seq<Action>, q: seq<Action>, d: Disposition)
    ensures JobsWith(p + q, d) == JobsWith(p, d) + JobsWith(q, d)
    decreases |q|
  {
    if q == [] {
      assert p + q == p;
    } else {
      assert (p + q)[..|p + q| - 1] == p + q[..|q| - 1];
      JobsWithAppend(p, q[..|q| - 1], d);
    }
  }

  /** A plan of one disposition lists its jobs in order under that disposition, and none under another. */
  lemma {:induction false} JobsWithUniform(plan: seq<Action>, d: Disposition, e: Disposition)
    requires forall i :: 0 <= i < |plan| ==> plan[i].kind == d
    ensures JobsWith(plan, e) == if d == e then seq(|plan|, i requires 0 <= i < |plan| => plan[i].job) else []
    decreases |plan|
  {
    if plan != [] {
      JobsWithUniform(plan[..|plan| - 1], d, e);
    }
  }

  lemma JobsOfAppend(plan: seq<Action>, a: Action)
    ensures JobsOf(plan + [a]) == JobsOf(plan) + {a.job}
  {
    var extended := plan + [a];
    assert extended[|plan|] == a;
    assert forall i :: 0 <= i < |plan| ==> extended[i] == plan[i];
  }

  /** A plan that acts on no job twice acts on as many jobs as it has actions. */
  lemma {:induction false} DistinctSize(plan: seq<Action>)
    requires Distinct(plan)
    ensures |JobsOf(plan)| == |plan|
    decreases |plan|
  {
    if plan != [] {
      var prefix := plan[..|plan| - 1];
      DistinctSize(prefix);
      assert JobsOf(plan) == JobsOf(prefix) + {plan[|plan| - 1].job};
      assert plan[|plan| - 1].job !in JobsOf(prefix);
    }
  }

  /**
   * Every old job that no new job shares a name with is archived exactly once,
   * with its result filed under its name, and gets no other action.
   */
  lemma ArchivedJobsReported(
    w: World, s: Settings, rd: Rendering, oldJobs: set<Job>, newJobs: set<Job>, archived: set<string>,
    p1: seq<Action>, p2: seq<Action>)
    requires ArchivePass(rd, oldJobs, newJobs, p1) && SecondPass(rd, oldJobs, newJobs, archived, p2)
    ensures var outs := Trace(w, s, rd, p1 + p2).1;
      && |Report(p1 + p2, outs).archived| == |p1| == |ToArchive(rd, oldJobs, newJobs)|
      && (forall i :: 0 <= i < |p1| ==> Report(p1 + p2, outs).archived[i].jobName == NameOf(rd, p1[i].job))
    ensures forall j :: j in ToArchive(rd, oldJobs, newJobs) ==> j !in JobsOf(p2)
  {
    var outs := Trace(w, s, rd, p1 + p2).1;
    TraceNames(w, s, rd, p1 + p2);
    SelectNames(rd, p1 + p2, outs, Archive);
    JobsWithAppend(p1, p2, Archive);
    JobsWithUniform(p1, Archive, Archive);
    assert JobsWith(p2, Archive) == [] by {
      JobsWithNone(p2, Archive);
    }
    DistinctSize(p1);
    forall j | j in ToArchive(rd, oldJobs, newJobs)
      ensures j !in JobsOf(p2)
    {
      assert NameOf(rd, j) !in Names(rd, newJobs);
    }
  }

  lemma {:induction false} JobsWithNone(plan: seq<Action>, d: Disposition)
    requires forall i :: 0 <= i < |plan| ==> plan[i].kind != d
    ensures JobsWith(plan, d) == []
    decreases |plan|
  {
    if plan != [] {
      JobsWithNone(plan[..|plan| - 1], d);
    }
  }

  /**
   * A new job whose name was in the archive when the call began is revived, and
   * acted on in no other way, even when an old job has its name.
   */
  lemma ArchivedNamesRevived(
    rd: Rendering, oldJobs: set<Job>, newJobs: set<Job>, archived: set<string>, p2: seq<Action>, j: Job)
    requires SecondPass(rd, oldJobs, newJobs, archived, p2)
    requires j in newJobs && NameOf(rd, j) in archived
    ensures Action(Revive, j) in p2
    ensures forall a :: a in p2 && a.job == j ==> a.kind == Revive
  {
  }

  /**
   * A new job whose name is not archived, for any old jobs: same-named but not
   * among them, it is rewritten; with no same-named old job, it is created.
   * Equal to an old job that no other old job shares a name with, it gets no
   * action and so no result.
   */
  lemma FollowsOldJobs(
    rd: Rendering, oldJobs: set<Job>, newJobs: set<Job>, archived: set<string>, p2: seq<Action>, j: Job)
    requires SecondPass(rd, oldJobs, newJobs, archived, p2)
    requires j in newJobs && NameOf(rd, j) !in archived
    ensures j in oldJobs && SoleOfItsName(rd, oldJobs, j) ==> j !in JobsOf(p2)
    ensures j !in oldJobs && NameOf(rd, j) in Names(rd, oldJobs) ==> Action(Rewrite, j) in p2
    ensures NameOf(rd, j) !in Names(rd, oldJobs) ==> Action(Create, j) in p2
  {
  }

  /**
   * The archive pass acts only on names no new job has, so the second pass never
   * sees a job the first pass archived: its dispositions come from the archive as
   * it was before the call.
   */
  lemma ArchivePassSparesNewNames(rd: Rendering, oldJobs: set<Job>, newJobs: set<Job>, p1: seq<Action>, p2: seq<Action>, archived: set<string>)
    requires ArchivePass(rd, oldJobs, newJobs, p1) && SecondPass(rd, oldJobs, newJobs, archived, p2)
    ensures forall i, k :: 0 <= i < |p1| && 0 <= k < |p2| ==> NameOf(rd, p1[i].job) != NameOf(rd, p2[k].job)
  {
    forall i, k | 0 <= i < |p1| && 0 <= k < |p2|
      ensures NameOf(rd, p1[i].job) != NameOf(rd, p2[k].job)
    {
      assert p1[i].job in JobsOf(p1);
      assert NameOf(rd, p2[k].job) in Names(rd, newJobs);
    }
  }

  // ---------------------------------------------------------------------------
  // Actions on distinct names do not interfere
  // ---------------------------------------------------------------------------

  /** An action's outcome, and what it leaves for its own job, depend only on what the world held for that job. */
  lemma ActDependsOnSlot(w1: World, w2: World, s: Settings, rd: Rendering, a: Action)
    requires SlotOf(w1, NameOf(rd, a.job)) == SlotOf(w2, NameOf(rd, a.job))
    ensures Act(w1, s, rd, a).1 == Act(w2, s, rd, a).1
    ensures SlotOf(Act(w1, s, rd, a).0, NameOf(rd, a.job)) == SlotOf(Act(w2, s, rd, a).0, NameOf(rd, a.job))
  {
    match a.kind
    case Create => CreateDependsOnSlot(w1, w2, s, rd, a.job);
    case Archive => ArchiveDependsOnSlot(w1, w2, s, rd, a.job);
    case Rewrite => CallDependsOnSlot(w1, w2, s, rd, WriteTemplateOf(a.job), UpdateRemoteOf(NameOf(rd, a.job)), Succeeded(NameOf(rd, a.job)));
    case Revive => CallDependsOnSlot(w1, w2, s, rd, ReviveDirOf(a.job), CreateRemoteOf(NameOf(rd, a.job)), Succeeded(NameOf(rd, a.job)));
  }

  /** A plan leaves alone every job it has no action for. */
  lemma {:induction false} TraceLocality(w: World, s: Settings, rd: Rendering, plan: seq<Action>, n: string)
    requires forall i :: 0 <= i < |plan| ==> NameOf(rd, plan[i].job) != n
    ensures SlotOf(Trace(w, s, rd, plan).0, n) == SlotOf(w, n)
    decreases |plan|
  {
    if plan != [] {
      TraceLocality(w, s, rd, plan[..|plan| - 1], n);
    }
  }

  ghost predicate DistinctNames(rd: Rendering, plan: seq<Action>) {
    forall i, k :: 0 <= i < k < |plan| ==> NameOf(rd, plan[i].job) != NameOf(rd, plan[k].job)
  }

  /**
   * When no two actions share a name, the order of a plan does not matter: each
   * action's result, and what the world ends up holding for its job, are those
   * of the action run alone on the initial world.
   */
  lemma {:induction false} TraceIndependent(w: World, s: Settings, rd: Rendering, plan: seq<Action>)
    requires DistinctNames(rd, plan)
    ensures forall i :: 0 <= i < |plan| ==>
      Trace(w, s, rd, plan).1[i] == Wrapped(NameOf(rd, plan[i].job), Act(w, s, rd, plan[i]).1)
    ensures forall i :: 0 <= i < |plan| ==>
      SlotOf(Trace(w, s, rd, plan).0, NameOf(rd, plan[i].job))
        == SlotOf(Act(w, s, rd, plan[i]).0, NameOf(rd, plan[i].job))
    decreases |plan|
  {
    if plan != [] {
      var prefix, a := plan[..|plan| - 1], plan[|plan| - 1];
      var n := NameOf(rd, a.job);
      assert forall i :: 0 <= i < |prefix| ==> prefix[i] == plan[i];
      TraceIndependent(w, s, rd, prefix);
      var w1 := Trace(w, s, rd, prefix).0;
      TraceLocality(w, s, rd, prefix, n);
      ActDependsOnSlot(w1, w, s, rd, a);
    }
  }

  /**
   * With unique names among the old jobs and among the new ones, the plan of a
   * reconciliation never names a job twice, so each job fares as if it were the
   * only one acted on.
   */
  lemma ReconciliationNamesDistinct(
    rd: Rendering, oldJobs: set<Job>, newJobs: set<Job>, archived: set<string>, p1: seq<Action>, p2: seq<Action>)
    requires ArchivePass(rd, oldJobs, newJobs, p1) && SecondPass(rd, oldJobs, newJobs, archived, p2)
    requires UniqueNames(rd, oldJobs) && UniqueNames(rd, newJobs)
    ensures DistinctNames(rd, p1 + p2)
  {
    ArchivePassSparesNewNames(rd, oldJobs, newJobs, p1, p2, archived);
    var plan := p1 + p2;
    forall i, k | 0 <= i < k < |plan|
      ensures NameOf(rd, plan[i].job) != NameOf(rd, plan[k].job)
    {
      if k < |p1| {
        assert plan[i].job in JobsOf(p1) && plan[k].job in JobsOf(p1);
      } else if i >= |p1| {
        assert plan[i] == p2[i - |p1|] && plan[k] == p2[k - |p1|];
      } else {
        assert plan[k] == p2[k - |p1|];
      }
    }
  }

  // ---------------------------------------------------------------------------
  // A successful reconciliation need not be repeated
  // ---------------------------------------------------------------------------

  /**
   * After a reconciliation with unique names on both sides in which every
   * result is a success, no new job's name is left in the archive: a revived
   * job has left it, and any other new job's name was never in it and is not
   * put there.
   */
  lemma SuccessLeavesNewNamesActive(
    w: World, s: Settings, rd: Rendering, oldJobs: set<Job>, newJobs: set<Job>, p1: seq<Action>, p2: seq<Action>, j: Job)
    requires ArchivePass(rd, oldJobs, newJobs, p1) && SecondPass(rd, oldJobs, newJobs, w.archive.Keys, p2)
    requires UniqueNames(rd, oldJobs) && UniqueNames(rd, newJobs)
    requires forall i :: 0 <= i < |p1 + p2| ==> Trace(w, s, rd, p1 + p2).1[i].success
    requires j in newJobs
    ensures NameOf(rd, j) !in Trace(w, s, rd, p1 + p2).0.archive
  {
    var plan, n := p1 + p2, NameOf(rd, j);
    var wf := Trace(w, s, rd, plan).0;
    assert n in Names(rd, newJobs);
    if j in JobsOf(p2) {
      var i :| 0 <= i < |p2| && p2[i].job == j;
      var a := p2[i];
      assert plan[|p1| + i] == a;
      ReconciliationNamesDistinct(rd, oldJobs, newJobs, w.archive.Keys, p1, p2);
      TraceIndependent(w, s, rd, plan);
      var (w1, t) := Act(w, s, rd, a);
      assert SlotOf(wf, n) == SlotOf(w1, n);
      if a.kind == Revive {
        assert Trace(w, s, rd, plan).1[|p1| + i].success;
        assert t.Returned?;
        assert n !in w1.archive;
      } else {
        assert n !in w.archive && w1.archive == w.archive;
      }
    } else {
      assert MayStay(rd, oldJobs, w.archive.Keys, j);
      forall k | 0 <= k < |plan|
        ensures NameOf(rd, plan[k].job) != n
      {
        if k < |p1| {
          assert plan[k] == p1[k] && p1[k].job in JobsOf(p1);
        } else {
          assert plan[k] == p2[k - |p1|] && p2[k - |p1|].job in JobsOf(p2);
        }
      }
      TraceLocality(w, s, rd, plan, n);
    }
  }

  /**
   * Calling again with the new jobs as the old ones, when their names are
   * unique and none of them is archived, does nothing: nothing is archived,
   * nothing gets a disposition, the host is left as it is and every group of
   * the report is empty.
   */
  lemma {:induction false} RerunIsNoOp(
    w: World, s: Settings, rd: Rendering, jobs: set<Job>, archived: set<string>, p1: seq<Action>, p2: seq<Action>)
    requires ArchivePass(rd, jobs, jobs, p1) && SecondPass(rd, jobs, jobs, archived, p2)
    requires UniqueNames(rd, jobs)
    requires forall j :: j in jobs ==> NameOf(rd, j) !in archived
    ensures p1 == [] && p2 == []
    ensures Trace(w, s, rd, p1 + p2) == (w, [])
    ensures Report(p1 + p2, Trace(w, s, rd, p1 + p2).1) == JobUpdateResults([], [], [], [])
  {
    assert ToArchive(rd, jobs, jobs) == {} by {
      forall j | j in jobs
        ensures NameOf(rd, j) in Names(rd, jobs)
      {
      }
    }
    DistinctSize(p1);
    assert JobsOf(p2) == {} by {
      forall j | j in jobs
        ensures j !in JobsOf(p2)
      {
        assert SoleOfItsName(rd, jobs, j);
        FollowsOldJobs(rd, jobs, jobs, archived, p2, j);
      }
    }
    DistinctSize(p2);
    assert p1 + p2 == [];
  }

  /**
   * Idempotence: after a call in which every result succeeded, with unique
   * names on both sides, a second call with the new jobs as the old ones
   * takes no action, leaves the host as it is and reports nothing.
   */
  lemma SuccessfulUpdateIsIdempotent(
    w: World, s: Settings, rd: Rendering, oldJobs: set<Job>, newJobs: set<Job>,
    p1: seq<Action>, p2: seq<Action>, q1: seq<Action>, q2: seq<Action>)
    requires ArchivePass(rd, oldJobs, newJobs, p1) && SecondPass(rd, oldJobs, newJobs, w.archive.Keys, p2)
    requires UniqueNames(rd, oldJobs) && UniqueNames(rd, newJobs)
    requires forall i :: 0 <= i < |p1 + p2| ==> Trace(w, s, rd, p1 + p2).1[i].success
    requires var w' := Trace(w, s, rd, p1 + p2).0;
      ArchivePass(rd, newJobs, newJobs, q1) && SecondPass(rd, newJobs, newJobs, w'.archive.Keys, q2)
    ensures q1 == [] && q2 == []
    ensures var w' := Trace(w, s, rd, p1 + p2).0;
      Trace(w', s, rd, q1 + q2) == (w', []) && Report(q1 + q2, Trace(w', s, rd, q1 + q2).1) == JobUpdateResults([], [], [], [])
  {
    var w' := Trace(w, s, rd, p1 + p2).0;
    forall j | j in newJobs
      ensures NameOf(rd, j) !in w'.archive.Keys
    {
      SuccessLeavesNewNamesActive(w, s, rd, oldJobs, newJobs, p1, p2, j);
    }
    RerunIsNoOp(w', s, rd, newJobs, w'.archive.Keys, q1, q2);
  }

  // ---------------------------------------------------------------------------
  // update(Set<Job>, Set<Job>)
  // ---------------------------------------------------------------------------

  lemma TraceStep(w: World, s: Settings, rd: Rendering, plan: seq<Action>, a: Action)
    ensures Trace(w, s, rd, plan + [a]) ==
      var (w1, outs) := Trace(w, s, rd, plan);
      var (w2, t) := Act(w1, s, rd, a);
      (w2, outs + [Wrapped(NameOf(rd, a.job), t)])
  {
    assert (plan + [a])[..|plan|] == plan;
  }

  /** Appends a result to the group of its disposition. */
  function Filed(rs: JobUpdateResults, d: Disposition, o: JobUpdateResult): JobUpdateResults {
    match d
    case Create => rs.(created := rs.created + [o])
    case Archive => rs.(archived := rs.archived + [o])
    case Rewrite => rs.(rewritten := rs.rewritten + [o])
    case Revive => rs.(revived := rs.revived + [o])
  }

  /** The group a disposition's results are filed in. */
  function Group(rs: JobUpdateResults, d: Disposition): seq<JobUpdateResult> {
    match d
    case Create => rs.created
    case Archive => rs.archived
    case Rewrite => rs.rewritten
    case Revive => rs.revived
  }

  function Total(rs: JobUpdateResults): nat {
    |rs.created| + |rs.archived| + |rs.rewritten| + |rs.revived|
  }

  /** Filing a result appends it to its disposition's group and to no other. */
  lemma FiledAppendsToOneGroup(rs: JobUpdateResults, d: Disposition, o: JobUpdateResult)
    ensures Total(Filed(rs, d, o)) == Total(rs) + 1
    ensures Group(Filed(rs, d, o), d) == Group(rs, d) + [o]
    ensures forall e :: e != d ==> Group(Filed(rs, d, o), e) == Group(rs, e)
  {
  }

  /** Every action's result is filed in exactly one of the four groups. */
  lemma {:induction false} ReportFilesEveryResult(plan: seq<Action>, outs: seq<JobUpdateResult>)
    requires |plan| == |outs|
    ensures Total(Report(plan, outs)) == |plan|
    ensures forall d :: Group(Report(plan, outs), d) == Select(plan, outs, d)
    decreases |plan|
  {
    if plan != [] {
      var n := |plan| - 1;
      ReportFilesEveryResult(plan[..n], outs[..n]);
      ReportStep(plan[..n], outs[..n], plan[n], outs[n]);
      FiledAppendsToOneGroup(Report(plan[..n], outs[..n]), plan[n].kind, outs[n]);
      assert plan[..n] + [plan[n]] == plan;
      assert outs[..n] + [outs[n]] == outs;
    }
  }

  lemma ReportStep(plan: seq<Action>, outs: seq<JobUpdateResult>, a: Action, o: JobUpdateResult)
    requires |plan| == |outs|
    ensures Report(plan + [a], outs + [o]) == Filed(Report(plan, outs), a.kind, o)
  {
    assert (plan + [a])[..|plan|] == plan;
    assert (outs + [o])[..|outs|] == outs;
  }

  /** One more action of the second pass, run after the first pass and the earlier ones. */
  lemma SecondPassStep(
    w0: World, s: Settings, rd: Rendering, p1: seq<Action>, p2: seq<Action>, outs: seq<JobUpdateResult>,
    a: Action, w: World, t: Thrown<JobUpdateResult>)
    requires Trace(w0, s, rd, p1 + p2) == (w, outs)
    requires t == Act(w, s, rd, a).1
    ensures Trace(w0, s, rd, p1 + (p2 + [a])) == (Act(w, s, rd, a).0, outs + [Wrapped(NameOf(rd, a.job), t)])
    ensures Report(p1 + (p2 + [a]), outs + [Wrapped(NameOf(rd, a.job), t)])
         == Filed(Report(p1 + p2, outs), a.kind, Wrapped(NameOf(rd, a.job), t))
  {
    assert p1 + p2 + [a] == p1 + (p2 + [a]);
    TraceStep(w0, s, rd, p1 + p2, a);
    ReportStep(p1 + p2, outs, a, Wrapped(NameOf(rd, a.job), t));
  }

  /** Runs the update function of an action's disposition on the host. */
  method Apply(host: JenkinsHost, rd: Rendering, a: Action) returns (t: Thrown<JobUpdateResult>)
    modifies host
    ensures (host.State(), t) == Act(old(host.State()), host.settings, rd, a)
  {
    match a.kind {
      case Create => t := CreateJob(host, rd, a.job);
      case Archive => t := ArchiveJob(host, rd, a.job);
      case Rewrite => t := RewriteJob(host, rd, a.job);
      case Revive => t := ReviveJob(host, rd, a.job);
    }
  }

  /**
   * The decision the second pass takes for one new job: revive when its name
   * was archived; otherwise pick any old job with its name, and rewrite when
   * that one differs, or do nothing when it is the same job; create when no old
   * job has its name.
   */
  method Classify(rd: Rendering, oldJobs: set<Job>, archivedJobs: set<string>, job: Job) returns (d: Option<Disposition>)
    ensures d.Some? ==> Admissible(rd, oldJobs, archivedJobs, job, d.value)
    ensures d.None? ==> MayStay(rd, oldJobs, archivedJobs, job)
  {
    var name := NameOf(rd, job);
    if name in archivedJobs {
      return Some(Revive);
    }
    if exists o | o in oldJobs :: NameOf(rd, o) == name {
      var oldJob :| oldJob in oldJobs && NameOf(rd, oldJob) == name;
      if oldJob != job {
        return Some(Rewrite);
      }
      return None;
    }
    assert name !in Names(rd, oldJobs);
    return Some(Create);
  }

  /** The first loop: archive each old job whose name no new job has. */
  method ArchiveOldJobs(host: JenkinsHost, rd: Rendering, oldJobs: set<Job>, newJobs: set<Job>)
    returns (results: JobUpdateResults, ghost p1: seq<Action>, ghost outs: seq<JobUpdateResult>)
    modifies host
    ensures ArchivePass(rd, oldJobs, newJobs, p1)
    ensures (host.State(), outs) == Trace(old(host.State()), host.settings, rd, p1)
    ensures results == Report(p1, outs)
  {
    ghost var w0 := host.State();
    p1, outs := [], [];
    results := JobUpdateResults([], [], [], []);
    var rest := oldJobs;
    while rest != {}
      invariant rest <= oldJobs
      invariant Distinct(p1)
      invariant forall i :: 0 <= i < |p1| ==> p1[i].kind == Archive && p1[i].job !in rest
      invariant JobsOf(p1) == ToArchive(rd, oldJobs, newJobs) - rest
      invariant (host.State(), outs) == Trace(w0, host.settings, rd, p1)
      invariant results == Report(p1, outs)
      decreases rest
    {
      var job :| job in rest;
      if forall newJob | newJob in newJobs :: NameOf(rd, job) != NameOf(rd, newJob) {
        assert NameOf(rd, job) !in Names(rd, newJobs);
        var a := Action(Archive, job);
        var t := ArchiveJob(host, rd, job);
        var result := Wrapped(NameOf(rd, job), t);
        TraceStep(w0, host.settings, rd, p1, a);
        ReportStep(p1, outs, a, result);
        JobsOfAppend(p1, a);
        results := results.(archived := results.archived + [result]);
        p1, outs := p1 + [a], outs + [result];
      } else {
        assert NameOf(rd, job) in Names(rd, newJobs);
        assert job !in ToArchive(rd, oldJobs, newJobs);
      }
      rest := rest - {job};
    }
  }

  /** The second loop: give each new job its disposition against the archive as listed, and file its result. */
  method ReconcileNewJobs(
    host: JenkinsHost, rd: Rendering, oldJobs: set<Job>, newJobs: set<Job>, archivedJobs: set<string>,
    results0: JobUpdateResults, ghost w0: World, ghost p1: seq<Action>, ghost outs0: seq<JobUpdateResult>)
    returns (results: JobUpdateResults, ghost p2: seq<Action>, ghost outs: seq<JobUpdateResult>)
    requires (host.State(), outs0) == Trace(w0, host.settings, rd, p1)
    requires results0 == Report(p1, outs0)
    modifies host
    ensures SecondPass(rd, oldJobs, newJobs, archivedJobs, p2)
    ensures (host.State(), outs) == Trace(w0, host.settings, rd, p1 + p2)
    ensures results == Report(p1 + p2, outs)
  {
    p2, outs, results := [], outs0, results0;
    assert p1 + p2 == p1;
    var rest := newJobs;
    while rest != {}
      invariant rest <= newJobs
      invariant Distinct(p2)
      invariant forall i :: 0 <= i < |p2| ==>
        p2[i].job in newJobs - rest && Admissible(rd, oldJobs, archivedJobs, p2[i].job, p2[i].kind)
      invariant forall j :: j in newJobs - rest && j !in JobsOf(p2) ==> MayStay(rd, oldJobs, archivedJobs, j)
      invariant (host.State(), outs) == Trace(w0, host.settings, rd, p1 + p2)
      invariant results == Report(p1 + p2, outs)
      decreases rest
    {
      var job :| job in rest;
      var d := Classify(rd, oldJobs, archivedJobs, job);
      if d.Some? {
        var a := Action(d.value, job);
        ghost var w := host.State();
        var t := Apply(host, rd, a);
        var result := Wrapped(NameOf(rd, job), t);
        SecondPassStep(w0, host.settings, rd, p1, p2, outs, a, w, t);
        JobsOfAppend(p2, a);
        results := Filed(results, d.value, result);
        p2, outs := p2 + [a], outs + [result];
      }
      rest := rest - {job};
    }
  }

  /**
   * Reconciles the host with a new set of jobs. The names under the archive
   * root are listed once, before anything is done; if they cannot be listed the
   * call fails and nothing is changed. Otherwise the results are those of
   * running, in the order the loops took the jobs, a first pass that archives
   * each old job no new job shares a name with, then a second pass that gives
   * each new job one admissible disposition or none, judged against the archive
   * as it was listed.
   */
  method Update(host: JenkinsHost, rd: Rendering, oldJobs: set<Job>, newJobs: set<Job>)
    returns (r: Thrown<JobUpdateResults>, ghost p1: seq<Action>, ghost p2: seq<Action>)
    modifies host
    ensures ListOp in host.settings.faults ==>
      r == Threw(host.settings.faults[ListOp]) && host.State() == old(host.State())
    ensures ListOp !in host.settings.faults ==>
      && ArchivePass(rd, oldJobs, newJobs, p1)
      && SecondPass(rd, oldJobs, newJobs, old(host.archive.Keys), p2)
      && host.State() == Trace(old(host.State()), host.settings, rd, p1 + p2).0
      && r == Returned(Report(p1 + p2, Trace(old(host.State()), host.settings, rd, p1 + p2).1))
  {
    p1, p2 := [], [];
    var listing := host.ListArchive();
    if listing.Failure? {
      r := Threw(listing.error);
      return;
    }
    var archivedJobs := listing.value;
    ghost var w0 := host.State();
    ghost var outs;
    var results;
    results, p1, outs := ArchiveOldJobs(host, rd, oldJobs, newJobs);
    results, p2, outs := ReconcileNewJobs(host, rd, oldJobs, newJobs, archivedJobs, results, w0, p1, outs);
    r := Returned(results);
  }

  // ---------------------------------------------------------------------------
  // update(Platform), update(Task) and the selective rewrite they share
  // ---------------------------------------------------------------------------

  /**
   * The job universe: the jobs of every stored project, parsed in order (the
   * JDK projects, then the JDK test projects). The first project that fails to
   * parse aborts the whole expansion with its error.
   */
  function Universe(parsed: seq<Result<set<Job>, string>>): (r: Result<set<Job>, string>)
    ensures r.Success? <==> forall i :: 0 <= i < |parsed| ==> parsed[i].Success?
    ensures r.Success? ==> forall j ::
      j in r.value <==> exists i :: 0 <= i < |parsed| && parsed[i].Success? && j in parsed[i].value
    ensures r.Failure? ==> exists i ::
      && 0 <= i < |parsed| && parsed[i] == Failure(r.error)
      && forall k :: 0 <= k < i ==> parsed[k].Success?
    decreases |parsed|
  {
    if parsed == [] then Success({})
    else match parsed[0]
      case Failure(e) => Failure(e)
      case Success(jobs) =>
        var rest := Universe(parsed[1..]);
        assert forall i :: 1 <= i < |parsed| ==> parsed[i] == parsed[1..][i - 1];
        match rest
        case Failure(e) =>
          var i :| 0 <= i < |parsed[1..]| && parsed[1..][i] == Failure(e)
                   && forall k :: 0 <= k < i ==> parsed[1..][k].Success?;
          assert parsed[i + 1] == Failure(e);
          Failure(e)
        case Success(more) =>
          assert forall j :: j in more ==> exists i :: 0 <= i < |parsed| && parsed[i].Success? && j in parsed[i].value by {
            forall j | j in more
              ensures exists i :: 0 <= i < |parsed| && parsed[i].Success? && j in parsed[i].value
            {
              var i :| 0 <= i < |parsed[1..]| && parsed[1..][i].Success? && j in parsed[1..][i].value;
              assert parsed[i + 1] == parsed[1..][i];
            }
          }
          Success(jobs + more)
  }

  /** update(Platform)'s filter: a task job whose platform has the given id. */
  predicate OnPlatform(j: Job, platformId: string) {
    j.OfTask? && j.taskJob.platform.id == platformId
  }

  /** update(Task)'s filter: a task job whose task has the given id. */
  predicate OfTaskId(j: Job, taskId: string) {
    j.OfTask? && j.taskJob.task.id == taskId
  }

  function Selected(universe: set<Job>, matches: Job -> bool): set<Job> {
    set j | j in universe && matches(j)
  }

  /** A rewrite of each selected job, once, and nothing else. */
  ghost predicate RewritePass(selected: set<Job>, plan: seq<Action>) {
    && Distinct(plan)
    && (forall i :: 0 <= i < |plan| ==> plan[i].kind == Rewrite)
    && JobsOf(plan) == selected
  }

  /**
   * update(Predicate, Function): expand every stored project into the job
   * universe (a parse failure aborts the call before anything is rewritten),
   * then rewrite each job the filter accepts and collect the wrapped results.
   */
  method RewriteMatching(host: JenkinsHost, rd: Rendering, parsed: seq<Result<set<Job>, string>>, matches: Job -> bool)
    returns (r: Thrown<seq<JobUpdateResult>>, ghost plan: seq<Action>)
    modifies host
    ensures Universe(parsed).Failure? ==>
      r == Threw(Universe(parsed).error) && host.State() == old(host.State())
    ensures Universe(parsed).Success? ==>
      && RewritePass(Selected(Universe(parsed).value, matches), plan)
      && host.State() == Trace(old(host.State()), host.settings, rd, plan).0
      && r == Returned(Trace(old(host.State()), host.settings, rd, plan).1)
  {
    plan := [];
    var universe := Universe(parsed);
    if universe.Failure? {
      r := Threw(universe.error);
      return;
    }
    ghost var w0 := host.State();
    ghost var selected := Selected(universe.value, matches);
    var results: seq<JobUpdateResult> := [];
    var rest := universe.value;
    while rest != {}
      invariant rest <= universe.value
      invariant Distinct(plan)
      invariant forall i :: 0 <= i < |plan| ==> plan[i].kind == Rewrite && plan[i].job !in rest
      invariant JobsOf(plan) == selected - rest
      invariant (host.State(), results) == Trace(w0, host.settings, rd, plan)
      decreases rest
    {
      var job :| job in rest;
      if matches(job) {
        var a := Action(Rewrite, job);
        var t := RewriteJob(host, rd, job);
        TraceStep(w0, host.settings, rd, plan, a);
        JobsOfAppend(plan, a);
        results := results + [Wrapped(NameOf(rd, job), t)];
        plan := plan + [a];
      }
      rest := rest - {job};
    }
    r := Returned(results);
  }

  /** The shape of update(Platform) and update(Task): only rewrites, one per selected job, under its name. */
  lemma SelectiveReport(w: World, s: Settings, rd: Rendering, selected: set<Job>, plan: seq<Action>)
    requires RewritePass(selected, plan)
    ensures |Trace(w, s, rd, plan).1| == |selected|
    ensures forall i :: 0 <= i < |plan| ==> Trace(w, s, rd, plan).1[i].jobName == NameOf(rd, plan[i].job)
  {
    DistinctSize(plan);
    TraceNames(w, s, rd, plan);
  }

  /**
   * update(Platform): rewrite every job of the universe that is a task job on
   * this platform; nothing is created, archived or revived.
   */
  method UpdatePlatform(host: JenkinsHost, rd: Rendering, parsed: seq<Result<set<Job>, string>>, platform: Platform)
    returns (r: Thrown<JobUpdateResults>, ghost plan: seq<Action>)
    modifies host
    ensures Universe(parsed).Failure? ==>
      r == Threw(Universe(parsed).error) && host.State() == old(host.State())
    ensures Universe(parsed).Success? ==>
      && RewritePass(Selected(Universe(parsed).value, j => OnPlatform(j, platform.id)), plan)
      && host.State() == Trace(old(host.State()), host.settings, rd, plan).0
      && r == Returned(JobUpdateResults([], [], Trace(old(host.State()), host.settings, rd, plan).1, []))
  {
    var rewritten;
    rewritten, plan := RewriteMatching(host, rd, parsed, j => OnPlatform(j, platform.id));
    if rewritten.Threw? {
      r := Threw(rewritten.message);
      return;
    }
    r := Returned(JobUpdateResults([], [], rewritten.value, []));
  }

  /**
   * update(Task): rewrite every job of the universe that is a task job of this
   * task; nothing is created, archived or revived.
   */
  method UpdateTask(host: JenkinsHost, rd: Rendering, parsed: seq<Result<set<Job>, string>>, task: Task)
    returns (r: Thrown<JobUpdateResults>, ghost plan: seq<Action>)
    modifies host
    ensures Universe(parsed).Failure? ==>
      r == Threw(Universe(parsed).error) && host.State() == old(host.State())
    ensures Universe(parsed).Success? ==>
      && RewritePass(Selected(Universe(parsed).value, j => OfTaskId(j, task.id)), plan)
      && host.State() == Trace(old(host.State()), host.settings, rd, plan).0
      && r == Returned(JobUpdateResults([], [], Trace(old(host.State()), host.settings, rd, plan).1, []))
  {
    var rewritten;
    rewritten, plan := RewriteMatching(host, rd, parsed, j => OfTaskId(j, task.id));
    if rewritten.Threw? {
      r := Threw(rewritten.message);
      return;
    }
    r := Returned(JobUpdateResults([], [], rewritten.value, []));
  }
}

=== FILE: JobActions.dfy ===
/**
 * The four job update functions of JenkinsJobUpdater (create, revive, rewrite,
 * archive), the two-step protocol PrimaryExceptionThrower runs three of them
 * under, and the wrapper that turns every failure into a per-job result.
 */
module JobActions {
  import opened Wrappers
  import opened Jobs
  import opened Host

  /** The outcome of acting on one job: its name, whether it succeeded, and the failure's message. */
  datatype JobUpdateResult = JobUpdateResult(jobName: string, success: bool, message: Option<string>)

  /** What a call that may throw ends with: its value, or an exception with its message. */
  datatype Thrown<T> = Returned(value: T) | Threw(message: string)

  /** The steps the actions hand to PrimaryExceptionThrower (its Rummable lambdas). */
  datatype Rummable =
    | WriteTemplateOf(job: Job)     // write the job's freshly generated template into its active directory
    | ReviveDirOf(job: Job)         // move the job's directory out of the archive, then write its template
    | CreateRemoteOf(jobName: string)
    | UpdateRemoteOf(jobName: string)

  function Succeeded(name: string): JobUpdateResult {
    JobUpdateResult(name, true, None)
  }

  /** Generating the template (which may fail) and writing it as the job's config file. */
  function WriteTemplateStep(w: World, s: Settings, rd: Rendering, job: Job): (r: (World, Outcome))
    ensures OnlyTouches(w, r.0, NameOf(rd, job))
    ensures r.0.archive == w.archive && r.0.registered == w.registered
    ensures TemplateOf(rd, job).Failure? ==> r == (w, Fail(TemplateOf(rd, job).error))
    ensures r.1.Ok? <==>
      TemplateOf(rd, job).Success? && NameOf(rd, job) in w.jobs && WriteOp(NameOf(rd, job)) !in s.faults
    ensures r.1.Ok? ==> r.0.jobs == w.jobs[NameOf(rd, job) := Some(TemplateOf(rd, job).value)]
    ensures r.1.Fail? ==> r.0 == w
  {
    match TemplateOf(rd, job)
    case Failure(e) => (w, Fail(e))
    case Success(body) => WriteStep(w, s, NameOf(rd, job), body)
  }

  function RumStep(w: World, s: Settings, rd: Rendering, r: Rummable): (res: (World, Outcome))
    ensures OnlyTouches(w, res.0, RumName(rd, r))
    ensures r.ReviveDirOf? && MoveStep(w, s, ArchiveRoot, RumName(rd, r)).1.Fail? ==>
      res == MoveStep(w, s, ArchiveRoot, RumName(rd, r))
  {
    match r
    case WriteTemplateOf(job) => WriteTemplateStep(w, s, rd, job)
    case ReviveDirOf(job) =>
      var (w1, moved) := MoveStep(w, s, ArchiveRoot, NameOf(rd, job));
      if moved.Fail? then (w1, moved) else WriteTemplateStep(w1, s, rd, job)
    case CreateRemoteOf(n) => RegisterStep(w, s, CreateRemoteOp(n))
    case UpdateRemoteOf(n) => RegisterStep(w, s, UpdateRemoteOp(n))
  }

  /**
   * The specification of PrimaryExceptionThrower.call: the main step runs, then
   * the final step runs whatever the main step did; the main step's failure is
   * reported first, then the final step's, and otherwise the preset result.
   */
  function CallStep<T>(w: World, s: Settings, rd: Rendering, main: Rummable, final: Rummable, result: T): (World, Thrown<T>) {
    var (w1, m) := RumStep(w, s, rd, main);
    var (w2, f) := RumStep(w1, s, rd, final);
    (w2, if m.Fail? then Threw(m.message) else if f.Fail? then Threw(f.message) else Returned(result))
  }

  /**
   * The create function: make the directory (a failure there stops everything,
   * so the executor is not contacted), then write the config and register the
   * job under the two-step protocol.
   */
  function CreateStep(w: World, s: Settings, rd: Rendering, job: Job): (r: (World, Thrown<JobUpdateResult>))
    ensures OnlyTouches(w, r.0, NameOf(rd, job)) && r.0.archive == w.archive
    ensures var name := NameOf(rd, job);
      name in w.jobs || MkdirOp(name) in s.faults ==>
        r == (w, Threw("Could't create file: " + Path(s.jobsRoot, name)))
    ensures var name := NameOf(rd, job);
      name !in w.jobs && MkdirOp(name) !in s.faults ==>
        && name in r.0.jobs
        && (name in r.0.registered <==> name in w.registered || CreateRemoteOp(name) !in s.faults)
        && (TemplateOf(rd, job).Failure? ==> r.1 == Threw(TemplateOf(rd, job).error))
    ensures var name := NameOf(rd, job);
      r.1.Returned? <==>
        && name !in w.jobs && MkdirOp(name) !in s.faults
        && TemplateOf(rd, job).Success? && WriteOp(name) !in s.faults
        && CreateRemoteOp(name) !in s.faults
    ensures var name := NameOf(rd, job);
      r.1.Returned? ==>
        && r.1.value == Succeeded(name)
        && r.0.jobs == w.jobs[name := Some(TemplateOf(rd, job).value)]
        && name in r.0.registered
  {
    var name := NameOf(rd, job);
    var (w1, made) := MkdirStep(w, s, name);
    if made.Fail? then (w1, Threw(made.message))
    else CallStep(w1, s, rd, WriteTemplateOf(job), CreateRemoteOf(name), Succeeded(name))
  }

  /**
   * The revive function: move the directory back from the archive and write a
   * freshly generated config over the old one, then register the job; the
   * executor is contacted even when the move or the write failed.
   */
  function ReviveStep(w: World, s: Settings, rd: Rendering, job: Job): (r: (World, Thrown<JobUpdateResult>))
    ensures OnlyTouches(w, r.0, NameOf(rd, job))
    ensures var name := NameOf(rd, job);
      name in r.0.registered <==> name in w.registered || CreateRemoteOp(name) !in s.faults
    ensures var name := NameOf(rd, job);
      MoveStep(w, s, ArchiveRoot, name).1.Fail? ==>
        && r.0.jobs == w.jobs && r.0.archive == w.archive
        && r.1 == Threw(MoveStep(w, s, ArchiveRoot, name).1.message)
    ensures var name := NameOf(rd, job);
      r.1.Returned? <==>
        && MoveOp(ArchiveRoot, name) !in s.faults && name in w.archive && name !in w.jobs
        && TemplateOf(rd, job).Success? && WriteOp(name) !in s.faults
        && CreateRemoteOp(name) !in s.faults
    ensures var name := NameOf(rd, job);
      r.1.Returned? ==>
        && r.1.value == Succeeded(name)
        && r.0.archive == w.archive - {name}
        && r.0.jobs == w.jobs[name := Some(TemplateOf(rd, job).value)]
  {
    var name := NameOf(rd, job);
    CallStep(w, s, rd, ReviveDirOf(job), CreateRemoteOf(name), Succeeded(name))
  }

  /**
   * The rewrite function: overwrite the config in the active directory, then
   * reload the job on the executor, which is contacted even when the write failed.
   */
  function RewriteStep(w: World, s: Settings, rd: Rendering, job: Job): (r: (World, Thrown<JobUpdateResult>))
    ensures OnlyTouches(w, r.0, NameOf(rd, job)) && r.0.archive == w.archive
    ensures var name := NameOf(rd, job);
      name in r.0.registered <==> name in w.registered || UpdateRemoteOp(name) !in s.faults
    ensures var name := NameOf(rd, job);
      TemplateOf(rd, job).Failure? ==> r.0.jobs == w.jobs && r.1 == Threw(TemplateOf(rd, job).error)
    ensures var name := NameOf(rd, job);
      r.1.Returned? <==>
        && name in w.jobs && TemplateOf(rd, job).Success? && WriteOp(name) !in s.faults
        && UpdateRemoteOp(name) !in s.faults
    ensures var name := NameOf(rd, job);
      r.1.Returned? ==>
        r.1.value == Succeeded(name) && r.0.jobs == w.jobs[name := Some(TemplateOf(rd, job).value)]
  {
    var name := NameOf(rd, job);
    CallStep(w, s, rd, WriteTemplateOf(job), UpdateRemoteOf(name), Succeeded(name))
  }

  /**
   * The archive function, which does not use the two-step protocol: move the
   * directory to the archive and only if that worked delete the job on the
   * executor.
   */
  function ArchiveStep(w: World, s: Settings, rd: Rendering, job: Job): (r: (World, Thrown<JobUpdateResult>))
    ensures OnlyTouches(w, r.0, NameOf(rd, job))
    ensures var name := NameOf(rd, job);
      MoveStep(w, s, JobsRoot, name).1.Fail? ==>
        r == (w, Threw(MoveStep(w, s, JobsRoot, name).1.message))
    ensures var name := NameOf(rd, job);
      MoveStep(w, s, JobsRoot, name).1.Ok? ==>
        && r.0.jobs == w.jobs - {name}
        && r.0.archive == w.archive[name := w.jobs[name]]
        && (DeleteRemoteOp(name) in s.faults ==>
              r.0.registered == w.registered && r.1 == Threw(s.faults[DeleteRemoteOp(name)]))
    ensures var name := NameOf(rd, job);
      r.1.Returned? <==>
        && MoveOp(JobsRoot, name) !in s.faults && name in w.jobs && name !in w.archive
        && DeleteRemoteOp(name) !in s.faults
    ensures var name := NameOf(rd, job);
      r.1.Returned? ==> r.1.value == Succeeded(name) && name !in r.0.registered
  {
    var name := NameOf(rd, job);
    var (w1, moved) := MoveStep(w, s, JobsRoot, name);
    if moved.Fail? then (w1, Threw(moved.message))
    else
      var (w2, deleted) := DeleteRemoteStep(w1, s, name);
      if deleted.Fail? then (w2, Threw(deleted.message)) else (w2, Returned(Succeeded(name)))
  }

  /** jobUpdateFunctionWrapper: an exception becomes a failed result under the job's name. */
  function Wrapped(name: string, t: Thrown<JobUpdateResult>): (r: JobUpdateResult)
    ensures t.Threw? ==> r == JobUpdateResult(name, false, Some(t.message))
    ensures t.Returned? ==> r == t.value
  {
    match t
    case Returned(result) => result
    case Threw(message) => JobUpdateResult(name, false, Some(message))
  }

  method WriteTemplate(host: JenkinsHost, rd: Rendering, job: Job) returns (o: Outcome)
    modifies host
    ensures (host.State(), o) == WriteTemplateStep(old(host.State()), host.settings, rd, job)
  {
    var body := TemplateOf(rd, job);
    if body.Failure? {
      o := Fail(body.error);
    } else {
      o := host.WriteConfig(NameOf(rd, job), body.value);
    }
  }

  /** Runs one Rummable against the host; a failure is returned, not thrown. */
  method Rum(host: JenkinsHost, rd: Rendering, r: Rummable) returns (o: Outcome)
    modifies host
    ensures (host.State(), o) == RumStep(old(host.State()), host.settings, rd, r)
  {
    match r
    case WriteTemplateOf(job) =>
      o := WriteTemplate(host, rd, job);
    case ReviveDirOf(job) =>
      o := host.MoveDir(ArchiveRoot, NameOf(rd, job));
      if o.Ok? {
        o := WriteTemplate(host, rd, job);
      }
    case CreateRemoteOf(n) =>
      o := host.Register(CreateRemoteOp(n));
    case UpdateRemoteOf(n) =>
      o := host.Register(UpdateRemoteOp(n));
  }

  /** A main step, a final step that always runs after it, and the result both succeeding yields. */
  class PrimaryExceptionThrower<T> {
    const mainCall: Rummable
    const finalCall: Rummable
    const result: T

    constructor (mainCall: Rummable, finalCall: Rummable, result: T)
      ensures this.mainCall == mainCall && this.finalCall == finalCall && this.result == result
    {
      this.mainCall, this.finalCall, this.result := mainCall, finalCall, result;
    }

    /**
     * The final step runs whether or not the main step failed. When both fail,
     * the main step's exception propagates (the final one is only logged); when
     * only the final step fails, its exception propagates; otherwise the preset
     * result is returned.
     */
    method Call(host: JenkinsHost, rd: Rendering) returns (r: Thrown<T>)
      modifies host
      ensures (host.State(), r) == CallStep(old(host.State()), host.settings, rd, mainCall, finalCall, result)
      ensures var (w1, m) := RumStep(old(host.State()), host.settings, rd, mainCall);
              var (w2, f) := RumStep(w1, host.settings, rd, finalCall);
              && host.State() == w2
              && (m.Fail? ==> r == Threw(m.message))
              && (m.Ok? && f.Fail? ==> r == Threw(f.message))
              && (m.Ok? && f.Ok? ==> r == Returned(result))
    {
      var saved: Option<string> := None;
      var m := Rum(host, rd, mainCall);
      if m.Fail? {
        saved := Some(m.message);
      }
      var f := Rum(host, rd, finalCall);
      if f.Fail? {
        if saved.Some? {
          r := Threw(saved.value);
        } else {
          r := Threw(f.message);
        }
        return;
      }
      if saved.Some? {
        r := Threw(saved.value);
        return;
      }
      r := Returned(result);
    }
  }

  method CreateJob(host: JenkinsHost, rd: Rendering, job: Job) returns (t: Thrown<JobUpdateResult>)
    modifies host
    ensures (host.State(), t) == CreateStep(old(host.State()), host.settings, rd, job)
  {
    var name := NameOf(rd, job);
    var made := host.Mkdir(name);
    if made.Fail? {
      t := Threw(made.message);
      return;
    }
    var thrower := new PrimaryExceptionThrower(WriteTemplateOf(job), CreateRemoteOf(name), Succeeded(name));
    t := thrower.Call(host, rd);
  }

  method ReviveJob(host: JenkinsHost, rd: Rendering, job: Job) returns (t: Thrown<JobUpdateResult>)
    modifies host
    ensures (host.State(), t) == ReviveStep(old(host.State()), host.settings, rd, job)
  {
    var name := NameOf(rd, job);
    var thrower := new PrimaryExceptionThrower(ReviveDirOf(job), CreateRemoteOf(name), Succeeded(name));
    t := thrower.Call(host, rd);
  }

  method RewriteJob(host: JenkinsHost, rd: Rendering, job: Job) returns (t: Thrown<JobUpdateResult>)
    modifies host
    ensures (host.State(), t) == RewriteStep(old(host.State()), host.settings, rd, job)
  {
    var name := NameOf(rd, job);
    var thrower := new PrimaryExceptionThrower(WriteTemplateOf(job), UpdateRemoteOf(name), Succeeded(name));
    t := thrower.Call(host, rd);
  }

  method ArchiveJob(host: JenkinsHost, rd: Rendering, job: Job) returns (t: Thrown<JobUpdateResult>)
    modifies host
    ensures (host.State(), t) == ArchiveStep(old(host.State()), host.settings, rd, job)
  {
    var name := NameOf(rd, job);
    var moved := host.MoveDir(JobsRoot, name);
    if moved.Fail? {
      t := Threw(moved.message);
      return;
    }
    var deleted := host.DeleteRemote(name);
    if deleted.Fail? {
      t := Threw(deleted.message);
      return;
    }
    t := Returned(Succeeded(name));
  }

  // ---------------------------------------------------------------------------
  // Each step depends only on what the world holds for the job it names
  // ---------------------------------------------------------------------------

  /** The job a Rummable acts on. */
  function RumName(rd: Rendering, r: Rummable): string {
    match r
    case WriteTemplateOf(job) => NameOf(rd, job)
    case ReviveDirOf(job) => NameOf(rd, job)
    case CreateRemoteOf(n) => n
    case UpdateRemoteOf(n) => n
  }

  lemma RumDependsOnSlot(w1: World, w2: World, s: Settings, rd: Rendering, r: Rummable)
    requires SlotOf(w1, RumName(rd, r)) == SlotOf(w2, RumName(rd, r))
    ensures RumStep(w1, s, rd, r).1 == RumStep(w2, s, rd, r).1
    ensures SlotOf(RumStep(w1, s, rd, r).0, RumName(rd, r)) == SlotOf(RumStep(w2, s, rd, r).0, RumName(rd, r))
  {
    var n := RumName(rd, r);
    match r
    case WriteTemplateOf(job) =>
      if TemplateOf(rd, job).Success? {
        WriteDependsOnSlot(w1, w2, s, n, TemplateOf(rd, job).value);
      }
    case ReviveDirOf(job) =>
      MoveDependsOnSlot(w1, w2, s, ArchiveRoot, n);
      var (v1, m1) := MoveStep(w1, s, ArchiveRoot, n);
      var (v2, m2) := MoveStep(w2, s, ArchiveRoot, n);
      if m1.Ok? && TemplateOf(rd, job).Success? {
        WriteDependsOnSlot(v1, v2, s, n, TemplateOf(rd, job).value);
      }
    case CreateRemoteOf(_) =>
      RegisterDependsOnSlot(w1, w2, s, CreateRemoteOp(n));
    case UpdateRemoteOf(_) =>
      RegisterDependsOnSlot(w1, w2, s, UpdateRemoteOp(n));
  }

  lemma CallDependsOnSlot<T>(w1: World, w2: World, s: Settings, rd: Rendering, main: Rummable, final: Rummable, result: T)
    requires RumName(rd, main) == RumName(rd, final)
    requires SlotOf(w1, RumName(rd, main)) == SlotOf(w2, RumName(rd, main))
    ensures CallStep(w1, s, rd, main, final, result).1 == CallStep(w2, s, rd, main, final, result).1
    ensures SlotOf(CallStep(w1, s, rd, main, final, result).0, RumName(rd, main))
         == SlotOf(CallStep(w2, s, rd, main, final, result).0, RumName(rd, main))
  {
    RumDependsOnSlot(w1, w2, s, rd, main);
    RumDependsOnSlot(RumStep(w1, s, rd, main).0, RumStep(w2, s, rd, main).0, s, rd, final);
  }

  lemma CreateDependsOnSlot(w1: World, w2: World, s: Settings, rd: Rendering, job: Job)
    requires SlotOf(w1, NameOf(rd, job)) == SlotOf(w2, NameOf(rd, job))
    ensures CreateStep(w1, s, rd, job).1 == CreateStep(w2, s, rd, job).1
    ensures SlotOf(CreateStep(w1, s, rd, job).0, NameOf(rd, job)) == SlotOf(CreateStep(w2, s, rd, job).0, NameOf(rd, job))
  {
    var n := NameOf(rd, job);
    MkdirDependsOnSlot(w1, w2, s, n);
    if MkdirStep(w1, s, n).1.Ok? {
      CallDependsOnSlot(MkdirStep(w1, s, n).0, MkdirStep(w2, s, n).0, s, rd, WriteTemplateOf(job), CreateRemoteOf(n), Succeeded(n));
    }
  }

  lemma ArchiveDependsOnSlot(w1: World, w2: World, s: Settings, rd: Rendering, job: Job)
    requires SlotOf(w1, NameOf(rd, job)) == SlotOf(w2, NameOf(rd, job))
    ensures ArchiveStep(w1, s, rd, job).1 == ArchiveStep(w2, s, rd, job).1
    ensures SlotOf(ArchiveStep(w1, s, rd, job).0, NameOf(rd, job)) == SlotOf(ArchiveStep(w2, s, rd, job).0, NameOf(rd, job))
  {
    var n := NameOf(rd, job);
    MoveDependsOnSlot(w1, w2, s, JobsRoot, n);
    if MoveStep(w1, s, JobsRoot, n).1.Ok? {
      DeleteDependsOnSlot(MoveStep(w1, s, JobsRoot, n).0, MoveStep(w2, s, JobsRoot, n).0, s, n);
    }
  }
}

=== FILE: Jobs.dfy ===
/**
 * Jobs as the updater sees them: task jobs with their seven attributes, the
 * content equality that decides between rewrite and no-op, and the variables a
 * task job exports to its template.
 */
module Jobs {
  import opened Wrappers
  import opened KojiModel

  /**
   * A job running one task on one platform for one product. The constructor
   * stores its seven arguments unchanged and each getter returns one of them:
   * here they are the datatype's constructor and destructors. The scripts root
   * is a file, compared by its path.
   */
  datatype TaskJob = TaskJob(
    projectName: string,
    product: Product,
    buildProviders: set<BuildProvider>,
    task: Task,
    platform: Platform,
    variants: map<TaskVariant, TaskVariantValue>,
    scriptsRoot: string)

  /**
   * Any job the updater manages. Jobs that are not task jobs are known here only
   * by their attributes, which decide their equality.
   */
  datatype Job = OfTask(taskJob: TaskJob) | OtherJob(attributes: string)

  /**
   * TaskJob.equals: an object equals itself, a non-task-job never, and another
   * task job exactly when all seven attributes agree. So content equality of a
   * task job is value equality of the job.
   */
  function Equals(self: TaskJob, o: Job): (equal: bool)
    ensures equal <==> o == OfTask(self)
  {
    if o == OfTask(self) then true
    else match o
      case OtherJob(_) => false
      case OfTask(t) =>
        && self.projectName == t.projectName
        && self.product == t.product
        && self.buildProviders == t.buildProviders
        && self.task == t.task
        && self.platform == t.platform
        && self.variants == t.variants
        && self.scriptsRoot == t.scriptsRoot
  }

  /** The updater's "content changed" test on a task job is inequality of the jobs. */
  lemma UnequalIsContentChanged(o: TaskJob, j: Job)
    ensures OfTask(o) != j <==> !Equals(o, j)
  {
  }

  /**
   * The names of the four fixed exported variables. They are constants of the
   * template builder, which is not part of this model, so they are supplied.
   */
  datatype ExportKeys = ExportKeys(jdkVersion: string, ojdk: string, packageName: string, projectName: string)

  /** Collectors.toMap rejects a second entry under a key it already holds. */
  datatype ExportError = DuplicateKey

  /** Two distinct variants that share an id. */
  predicate SharedVariantId(variants: map<TaskVariant, TaskVariantValue>) {
    exists v, w :: v in variants && w in variants && v != w && v.id == w.id
  }

  function VariantIds(variants: map<TaskVariant, TaskVariantValue>): set<string> {
    set v | v in variants :: v.id
  }

  /** The four fixed entries, put in this order so that a later key replaces an earlier equal one. */
  function FixedVariables(t: TaskJob, keys: ExportKeys): (m: map<string, string>)
    ensures m.Keys == {keys.jdkVersion, keys.ojdk, keys.packageName, keys.projectName}
    ensures m[keys.projectName] == t.projectName
    ensures keys.packageName != keys.projectName ==> m[keys.packageName] == t.product.packageName
    ensures keys.ojdk !in {keys.projectName, keys.packageName} ==> m[keys.ojdk] == "o" + t.product.id
    ensures keys.jdkVersion !in {keys.projectName, keys.packageName, keys.ojdk} ==>
      m[keys.jdkVersion] == t.product.version
  {
    map[keys.jdkVersion := t.product.version]
      [keys.ojdk := "o" + t.product.id]
      [keys.packageName := t.product.packageName]
      [keys.projectName := t.projectName]
  }

  /** Every variant id mapped to the id of its value; defined only when the ids are distinct. */
  function VariantVariables(variants: map<TaskVariant, TaskVariantValue>): (m: map<string, string>)
    requires !SharedVariantId(variants)
    ensures m.Keys == VariantIds(variants)
    ensures forall v :: v in variants ==> m[v.id] == variants[v].id
  {
    var m := map v | v in variants :: v.id := variants[v].id;
    assert forall v :: v in variants ==> m[v.id] == variants[v].id;
    m
  }

  /**
   * TaskJob.getExportedVariables: the four fixed entries, then every variant id
   * mapped to its value id. Later entries replace earlier ones under the same
   * key, and two variants with one id abort the whole map.
   */
  function ExportedVariables(t: TaskJob, keys: ExportKeys): (r: Result<map<string, string>, ExportError>)
    ensures r.Failure? <==> SharedVariantId(t.variants)
    ensures r.Success? ==>
      r.value.Keys == {keys.jdkVersion, keys.ojdk, keys.packageName, keys.projectName} + VariantIds(t.variants)
    ensures r.Success? ==> forall v :: v in t.variants ==> r.value[v.id] == t.variants[v].id
    ensures r.Success? && keys.projectName !in VariantIds(t.variants) ==>
      r.value[keys.projectName] == t.projectName
    ensures r.Success? && keys.packageName !in VariantIds(t.variants) + {keys.projectName} ==>
      r.value[keys.packageName] == t.product.packageName
    ensures r.Success? && keys.ojdk !in VariantIds(t.variants) + {keys.projectName, keys.packageName} ==>
      r.value[keys.ojdk] == "o" + t.product.id
    ensures r.Success? && keys.jdkVersion !in VariantIds(t.variants) + {keys.projectName, keys.packageName, keys.ojdk} ==>
      r.value[keys.jdkVersion] == t.product.version
  {
    if SharedVariantId(t.variants) then Failure(DuplicateKey)
    else Success(FixedVariables(t, keys) + VariantVariables(t.variants))
  }

  /**
   * What the updater needs of a job beyond its attributes: its canonical name
   * (Job.toString(), also the name of its directory and of its registration on
   * the executor) and its generated config body (Job.generateTemplate(), which
   * can fail). Neither is part of this model, so both are supplied.
   */
  datatype Rendering = Rendering(name: Job -> string, template: Job -> Result<string, string>)

  function NameOf(rd: Rendering, j: Job): string {
    rd.name(j)
  }

  function TemplateOf(rd: Rendering, j: Job): Result<string, string> {
    rd.template(j)
  }
}

=== FILE: KojiModel.dfy ===
/**
 * The configuration entities a task job refers to. Their own classes are not
 * part of this model. A product keeps the three attributes a task job exports
 * (id, version, package name); every other entity is a value identified by
 * `id`, with whatever else it holds kept as an opaque `definition`. Two
 * entities are equal exactly when all they hold is equal.
 */
module KojiModel {

  datatype Product = Product(id: string, version: string, packageName: string)

  datatype Task = Task(id: string, definition: string)

  datatype Platform = Platform(id: string, definition: string)

  datatype TaskVariant = TaskVariant(id: string, definition: string)

  datatype TaskVariantValue = TaskVariantValue(id: string, definition: string)

  datatype BuildProvider = BuildProvider(id: string, definition: string)
}

=== FILE: Wrappers.dfy ===
/** Optional values and results that carry either a value or an error. */
module Wrappers {

  datatype Option<+T> = None | Some(value: T)

  datatype Result<+T, +E> = Success(value: T) | Failure(error: E)
}
